=== FILE: README.md ===
# Data cleaning and normalization pipeline, modelled in Dafny

This project models the two classes of a small pandas/sklearn pipeline.

- `DataCleaner` (DataCleaning.py) takes a frame through a fixed sequence of stages:
  1. convert the `time` column to datetimes;
  2. forward-fill then back-fill missing cells;
  3. drop repeated rows;
  4. mask IQR outliers and refill them;
  5. divide large `value` columns by 1e6;
  6. add `year`, `month` and `dayofweek` columns;
  7. record row and column counts.

  Each stage writes one entry of a `report` dictionary.
- `DataNormalizer` (DataNormalization.py) picks the numeric columns worth scaling. For each picked column it fits a standard or robust scaler, replaces the column by its scaled values, and records the fitted scalers and the column's before/after minimum and maximum.

## How the model is built

- **Frame** (`frame.dfy`). A frame is a `Table`: a sequence of typed, labelled columns and a sequence of rows of `Option<Value>` cells.
  - `None` is pandas' NaN/NaT.
  - A value is a number (`real`), a string, or a timestamp in nanoseconds.
  - The column kind (`Numeric`, `Text`, `DateTime`) stands for the pandas dtype. `select_dtypes(include=[np.number])` keeps the `Numeric` columns.
- **Stages are pure functions.** Each stage is a function from the old state to the new one. `run_all` is a method that chains them (in two parts, `Prepare` and `Finish`, around the unit stage). `Cleaner` holds the original frame, the working frame and a `Report` record with one optional field per report key. `Normalizer` holds the frame, the settings and two maps, `scalers` and `report`.
- **Errors are values.** A Python exception the code can raise is an `Err` result: `KeyError`, `TypeError` or `AttributeError`, each naming the label involved.
- **Gap filling** (`fill.dfy`) is defined twice:
  - operationally, as a forward pass followed by a backward pass;
  - by reference, as "the nearest present cell at or above, else at or below" (`Nearest`).

  The two are proved equal.
- **Duplicate removal** (`dedup.dfy`) is checked against an independent description: the positions that repeat no earlier row. pandas returns early from `duplicated()` and `drop_duplicates()` on an empty frame, and a frame with rows but no columns counts as empty. So such a frame keeps all its rows and `duplicates_removed` is 0. The sequence-level definitions describe a frame with at least one column, and the frame-level ones (`DuplicatedRows`, `DropDuplicateRows`) add the early return.
- **Outlier masking** (`outliers.dfy`, `quantile.dfy`):
  - Quartiles follow pandas' default linear interpolation over the sorted present numbers.
  - The loop over the column list is a fold, so a label listed twice is treated twice, as in the source.
  - A listed datetime column has timestamp quartiles and a duration IQR, so the comparisons succeed. Only `np.where`, which cannot put NaN into a datetime column, raises TypeError, and it runs only when that column has an outlier. A listed text column that holds a string has no quantile and raises TypeError. An all-missing or empty text column has NaN quartiles, so nothing is flagged and the column passes unchanged.
- **Unit rescaling** (`units.dfy`). The `value` column test is a case-sensitive substring test (`strings.dfy`).
- **Date features** (`calendar.dfy`) read the proleptic Gregorian calendar off the day number `floor(ns / 86400·10^9)`. The conversion splits the day into 400-year, 100-year, 4-year and 1-year cycles; Monday is weekday 0. The calendar is pandas' own `.dt` accessor code, not the pipeline's logic. It is modelled only so that the feature columns have a meaning, and it is pinned down by example dates rather than proved in general.
- **Datetime parsing.** `pd.to_datetime(errors='coerce')` is the parameter `parse`. A value the parser rejects becomes NaT.
- **Scaler fitting.** The sklearn fit is the parameter `fit`, which returns a centre and a scale.
  - The transform is the affine map `(x - centre) / scale` that both scalers apply.
  - A zero scale is replaced by 1, as sklearn does.
- **`normalize` statistics.**
  - `min_before` and `max_before` come from `np.min`/`np.max` on the raw array, so any missing cell makes them NaN (`None`).
  - `min_after` and `max_after` come from the pandas Series, which skips missing cells.

### Behaviour worth noting (the model follows the code)

- **Overwriting feature labels.** `add_date_features` assigns `df['year']`, `df['month']` and `df['dayofweek']`. A frame that already has one of these labels has that column overwritten, not appended. So the column count grows by anywhere from zero to three.
- **Pipeline errors.** For string column labels, the pipeline can raise in three places:
  - KeyError when there is no `time` column.
  - TypeError in `standardize_units` when a `value` column's maximum is a string or a timestamp.
  - AttributeError in `add_date_features` when `time` is not a datetime column. This cannot happen inside `run_all`, because the conversion ran first.
- **Normalizer summary collision.** `normalize` writes `report['columns_to_normalize']` first and then one entry per selected label. A selected numeric column whose label is `columns_to_normalize` therefore replaces the list with its statistics. `summary` then iterates that dictionary's keys (`scaler`, `min_before`, `max_before`, `min_after`, `max_after`, in that order) and looks each one up in the report. `run_all` always succeeds when no selected column is labelled `columns_to_normalize`. When one is, `run_all` raises KeyError at the first of those five keys that is not also a selected label. It succeeds only when all five are selected labels.

## Model

| member | source | states |
|---|---|---|
| Cleaner.NewCleaner | DataCleaning.py:16-19 | the original and the working frame are both the input, and the report is empty |
| Cleaner.ConvertDatetime | DataCleaning.py:31 | raises KeyError exactly when there is no `time` column; otherwise `time` becomes a datetime column of coerced cells (timestamps kept, missing stays missing, a value the column-aware parser cannot read becomes NaT), and every other column, the row count and the report are unchanged |
| Cleaner.ConvertDatetimeIdempotent | DataCleaning.py:31 | converting an already converted frame changes nothing |
| Frame.SetColumnLabels | DataCleaning.py:108-110 | assigning `df[label]` leaves the old labels plus the assigned one |
| Frame.SetColumn | DataCleaning.py:108-110 | `df[label] = values` keeps the frame rectangular with distinct labels and the same row count; an existing label keeps the column count, a new one is appended as the last column with the given dtype |
| Fill.FillColumn | DataCleaning.py:40-41 | forward fill then back fill gives each cell the nearest present value at or above it, else the nearest at or below it |
| Fill.FillColumnIsNearest | DataCleaning.py:40-41 | the two-pass fill agrees with the nearest-present-value definition cell by cell |
| Fill.PrevSpec | DataCleaning.py:40 | forward fill finds a value exactly when some cell at or above is present, and that value is the last such present cell |
| Fill.NextSpec | DataCleaning.py:41 | back fill finds a value exactly when some cell at or below is present, and that value is the first such present cell |
| Fill.FillColumnSpec | DataCleaning.py:40-41 | a present cell is never changed; a cell is still missing after filling iff the whole column was missing; every filled value comes from the column |
| Fill.FillColumnMissing | DataCleaning.py:42 | after filling, a column has no missing cell unless all its cells were missing |
| Fill.FillTable | DataCleaning.py:40-41 | the whole-frame fill treats every column on its own, and keeps labels, row count and well-formedness |
| Fill.FillTablePresence | DataCleaning.py:40-41 | after the fill a column is all missing exactly when it was all missing before |
| Fill.FillTableCells | DataCleaning.py:40-41 | every cell of the filled frame is the nearest present cell of its column; present cells are kept; a cell stays missing iff its column was all missing |
| Frame.CountMissingAll | DataCleaning.py:38 | a column's missing count is zero iff every cell is present, and equals its length iff every cell is missing |
| Fill.FillTableMissing | DataCleaning.py:38-44 | the missing count drops by exactly the number of missing cells in columns that have some present value |
| Fill.FillTableFixes | DataCleaning.py:38-44 | missing-before minus missing-after is that number of repairable cells, which lies between 0 and missing-before |
| Cleaner.HandleMissingValues | DataCleaning.py:38-44 | the frame is gap-filled; `missing_values_fixed` equals missing-before minus missing-after, which lies between 0 and missing-before; no other report key changes |
| Frame.MissingCountZero | DataCleaning.py:38-42 | `isnull().sum().sum()` is zero exactly when every cell of the frame is present |
| Dedup.FirstIndicesSpec | DataCleaning.py:51 | lists, in ascending order, exactly the positions `duplicated()` does not flag |
| Dedup.DuplicatedCount | DataCleaning.py:51 | the number of rows `duplicated()` flags is at most the row count |
| Dedup.DropDuplicatesSpec | DataCleaning.py:51-53 | the kept rows are the first occurrences in original order; no two are equal; the same rows occur as before; kept count plus flagged count is the original count |
| Dedup.DropDuplicates | DataCleaning.py:53 | `drop_duplicates` never returns more rows than it was given |
| Dedup.DropDuplicatesOfDistinct | DataCleaning.py:53 | a frame without repeated rows is left as it is |
| Dedup.DropDuplicatesIdempotent | DataCleaning.py:53 | removing duplicates a second time removes nothing |
| Dedup.DuplicatedRows | DataCleaning.py:51 | `duplicated().sum()` on a frame never exceeds its row count |
| Dedup.DropDuplicateRows | DataCleaning.py:53 | only the rows change, and well-formedness is kept |
| Dedup.DropDuplicateRowsSpec | DataCleaning.py:51-53 | a frame without columns comes back unchanged with nothing flagged; on any other frame the kept rows are the unflagged positions in order and no two are equal; in both cases kept plus flagged equals the original count and no row value is lost |
| Dedup.DropDuplicateRowsPresence | DataCleaning.py:53 | de-duplication leaves a column all missing exactly when it was all missing |
| Cleaner.RemoveDuplicates | DataCleaning.py:51-54 | rows after plus `duplicates_removed` equals rows before; a frame with a column has no repeated rows left, and a frame without columns is unchanged; membership is unchanged; labels are unchanged |
| Stats.Sort | DataCleaning.py:68-69 | the result is sorted and a permutation of the input |
| Stats.Quantile | DataCleaning.py:68-69 | a linearly interpolated quantile lies between the smallest and the largest value |
| Stats.QuantileMonotone | DataCleaning.py:68-69 | a higher quantile is never below a lower one |
| Outliers.ColumnQuartiles | DataCleaning.py:68-70 | the quartiles are NaN exactly when the column has no number; otherwise min ≤ Q1 ≤ Q3 ≤ max |
| Outliers.FencesOrdered | DataCleaning.py:70-71 | lower fence ≤ Q1 ≤ Q3 ≤ upper fence |
| Outliers.MaskedSpec | DataCleaning.py:76-80 | masking blanks exactly the cells strictly outside the fences and keeps every other cell; a column without outliers is unchanged |
| Outliers.Masked | DataCleaning.py:76-80 | masking keeps the column's length and either keeps a cell or blanks it |
| Outliers.TreatColumn | DataCleaning.py:68-80 | one loop step flags the column iff some cell lies outside its fences, masks that column only, and keeps labels and row count |
| Outliers.TreatColumns | DataCleaning.py:67-80 | a loop that gets through the list keeps the labels, dtypes and row count; a listed text column holding a string raises, an all-missing one is passed over |
| Outliers.TreatColumnsOk | DataCleaning.py:67-80 | the loop over a column list raises exactly when some listed label is absent, names a text column that holds a string, or names a datetime column holding a timestamp outside its fences |
| Outliers.TreatColumnsError | DataCleaning.py:67-80 | when the loop raises, it raises at the first such label: KeyError for an absent label, TypeError otherwise |
| Outliers.NumericNamesTreatable | DataCleaning.py:65-67 | the default list of numeric labels never makes the loop raise |
| Outliers.DateTimeListed | DataCleaning.py:67-80 | a listed datetime column with at most one timestamp passes the loop unchanged and is not reported |
| Outliers.TextListed | DataCleaning.py:67-80 | a listed text column without a value passes the loop unchanged and is not reported; one holding a value raises TypeError |
| Outliers.TreatColumnsCells | DataCleaning.py:67-80 | for a list of distinct labels, each listed numeric column is masked against its own original fences and every other column is unchanged |
| Outliers.TreatColumnsFlags | DataCleaning.py:72-74 | for a list without repeated labels, a label is reported iff it is listed and names a numeric column that had an outlier before the loop |
| Outliers.CleanOutliersIqr | DataCleaning.py:64-85 | with no column list the stage cannot fail; labels and row count are kept |
| Frame.NumericNames | DataCleaning.py:66 | a label is listed iff it names a numeric column |
| Outliers.MaskThenFill | DataCleaning.py:76-83 | after masking and refilling, a present in-range cell keeps its value and an outlier never keeps its value |
| Outliers.CleanOutliersCells | DataCleaning.py:64-83 | on a well-formed frame every present in-range cell is unchanged and every outlier is replaced |
| Outliers.CleanOutliersPresence | DataCleaning.py:64-83 | the pass without a column list never fails, and leaves a non-numeric column all missing exactly when it was all missing |
| Outliers.CleanOutliersReport | DataCleaning.py:64-85 | `outlier_columns` lists exactly the numeric columns holding an outlier |
| Outliers.CleanOutliersWellFormed | DataCleaning.py:76-83 | masking and refilling keep the frame well formed |
| Cleaner.CleanOutliers | DataCleaning.py:57-86 | with no column list it cannot fail; labels, row count and other report keys are kept, and well-formedness is kept |
| Strings.ContainsWindow | DataCleaning.py:93 | the substring test holds iff some window of the label equals the pattern |
| Strings.ContainsShorter | DataCleaning.py:93 | a label shorter than the pattern never contains it, so `time` is never a `value` column |
| Units.StandardizeUnits | DataCleaning.py:93-100 | raises TypeError, naming a column, iff some `value` column's maximum is a string or a timestamp; otherwise exactly the numeric `value` columns whose maximum exceeds 1e9 are divided by 1e6, all other cells are unchanged, and `scaled_columns` lists exactly those columns |
| Units.RescaledMax | DataCleaning.py:96-97 | a rescaled column's new maximum is the old one divided by 1e6, so it exceeds 1e3 |
| Cleaner.StandardizeUnitsStage | DataCleaning.py:88-101 | fails iff some `value` column cannot be compared with a number; otherwise labels, row count, other report keys and well-formedness are kept |
| Calendar.CivilFromDays | DataCleaning.py:108-109 | every day number maps to a month in 1..12 and a day in 1..31 |
| Calendar.DayOfWeek | DataCleaning.py:110 | the weekday lies in 0..6 |
| Calendar.Epoch | DataCleaning.py:108-110 | day 0 is 1970-01-01, a Thursday |
| Calendar.DayBeforeEpoch | DataCleaning.py:108-109 | day −1 is 1969-12-31 |
| Calendar.LeapDay2000 | DataCleaning.py:108-109 | day 11016 is 2000-02-29 |
| Calendar.Saturday2023 | DataCleaning.py:108-110 | day 19553 is 2023-07-15, a Saturday |
| Cleaner.DateField | DataCleaning.py:108-110 | a feature is NaN exactly for a NaT cell; otherwise it is a number, with the month in 1..12 and the weekday in 0..6 |
| Cleaner.DateFieldExample | DataCleaning.py:108-110 | any instant on 2023-07-15 yields year 2023, month 7, weekday 5 |
| Cleaner.SetFeaturesLabels | DataCleaning.py:108-110 | the labels after are the labels before plus `year`, `month`, `dayofweek`; the column count grows by zero to three |
| Cleaner.SetFeatures | DataCleaning.py:108-110 | the three assignments keep the frame rectangular with distinct labels and the same row count |
| Cleaner.SetFeaturesKeep | DataCleaning.py:108-110 | every column with another label keeps its label, kind and cells |
| Cleaner.SetFeaturesValues | DataCleaning.py:108-110 | each feature column is numeric and holds that feature of the `time` cell in the same row |
| Cleaner.SetFeaturesWellFormed | DataCleaning.py:108-110 | adding the features keeps a well-formed frame well formed |
| Cleaner.AddDateFeatures | DataCleaning.py:107-111 | raises KeyError without `time` and AttributeError when `time` is not datetime, succeeds otherwise; keeps the row count and records the three feature labels |
| Cleaner.Summary | DataCleaning.py:118-120 | records the original row count, the current row count and the current column count; the frames are unchanged |
| Cleaner.Repair | DataCleaning.py:134-136 | filling, de-duplication and outlier treatment never fail, keep the labels, and rows after plus duplicates removed equals rows before |
| Cleaner.ConvertIncomparable | DataCleaning.py:31 | the conversion changes no column on which `standardize_units` raises, in either direction |
| Cleaner.RepairIncomparable | DataCleaning.py:134-136 | filling, de-duplication and the default outlier pass change no column on which `standardize_units` raises, in either direction |
| Cleaner.Prepare | DataCleaning.py:133-136 | the first four stages fail, with KeyError(`time`), exactly when there is no time column; otherwise `time` is a datetime column, the labels are unchanged, `standardize_units` would raise on exactly the same columns as on the input, `missing_values_fixed` ≥ 0, rows after plus duplicates removed equals rows before, and well-formedness is kept |
| Cleaner.Finish | DataCleaning.py:138-139 | after a successful conversion, adding the date features cannot fail; then the summary records the row and column counts, the row count is kept, the labels gain exactly `year`, `month`, `dayofweek`, and well-formedness is kept |
| Cleaner.RunAll | DataCleaning.py:133-140 | fails exactly when there is no time column (KeyError(`time`)) or some `value` column of the input is a datetime column or a text column holding a string (TypeError); on success every report key is written, `missing_values_fixed` ≥ 0, rows after plus duplicates removed equals rows before, `rows_after` ≤ `rows_before` for a fresh cleaner, the labels are the input labels plus `year`, `month`, `dayofweek`, and a well-formed frame stays well formed |
| Normalizer.NewNormalizer | DataNormalization.py:19-24 | a missing exclusion list becomes the empty list; scalers and report start empty |
| Normalizer.NoExclusionList | DataNormalization.py:21 | with no exclusion list, selection is the same as with an empty list, and no column is skipped by name |
| Normalizer.NUnique | DataNormalization.py:46 | the distinct-value count never exceeds the column length |
| Normalizer.Select | DataNormalization.py:41-48 | a label is selected iff it is one of the candidates and passes the keep test |
| Normalizer.SelectOrder | DataNormalization.py:41-48 | the selection is a subsequence of the candidates |
| Normalizer.DetectColumnsToScale | DataNormalization.py:37-51 | a label is selected iff it names a numeric column that is not excluded, has no skip keyword in its lower-cased label and has more than two distinct values; `report['columns_to_normalize']` is the returned list |
| Normalizer.DetectColumnsOrder | DataNormalization.py:41-48 | the selection keeps the numeric-column order and has no repeats |
| Normalizer.DetectColumnsCriteria | DataNormalization.py:37-47 | every selected label is a numeric column, not excluded, whose lower-cased label (`Strings.Lower`, the `col.lower()` of line 44) contains none of the keywords `percent`, `ratio`, `rate`, `return`, with more than two distinct values |
| Normalizer.GetScaler | DataNormalization.py:59-61 | the robust scaler iff the setting is exactly `robust`; the standard scaler for any other string |
| Normalizer.Normalize | DataNormalization.py:69-82 | keeps the labels, the row count and the settings |
| Normalizer.ScaledTable | DataNormalization.py:70-74 | replacing the selected columns keeps the labels, dtypes and row count |
| Normalizer.FittedScalers | DataNormalization.py:70-75 | `scalers` ends with the old keys plus the selected labels, and entries for other labels stay |
| Normalizer.ScaledReport | DataNormalization.py:76-82 | the report ends with the old keys plus `columns_to_normalize` plus the selected labels, and entries for other labels stay |
| Normalizer.NormalizeScalers | DataNormalization.py:69-75 | `scalers` gains exactly the selected labels, each mapped to a scaler of the configured kind fitted on that column; other entries stay |
| Normalizer.NormalizeCells | DataNormalization.py:70-74 | a selected column is replaced by its transform; every unselected column is unchanged |
| Normalizer.NormalizeReportKeys | DataNormalization.py:50-76 | the report keys after are the keys before plus `columns_to_normalize` plus the selected labels |
| Normalizer.NormalizeEntry | DataNormalization.py:76-82 | each selected label's entry records the scaler setting, the raw minimum and maximum (NaN if a cell is missing) and the minimum and maximum of the scaled present values |
| Normalizer.NormalizeListEntry | DataNormalization.py:50-76 | `columns_to_normalize` holds the selected list iff no selected column carries that label |
| Normalizer.AffineRange | DataNormalization.py:74-82 | with a positive divisor, the transform maps the minimum and maximum of the values to the minimum and maximum of the results |
| Normalizer.NormalizeRange | DataNormalization.py:74-82 | for a selected column with no missing cell and a non-negative fitted scale, `min_after` and `max_after` are the transforms of `min_before` and `max_before` |
| Normalizer.SummaryFailure | DataNormalization.py:91-94 | no lookup fails iff every listed label has a statistics entry; a failure names a listed label |
| Normalizer.NormalizerSummary | DataNormalization.py:91-94 | the summary leaves the state unchanged, and it succeeds iff every listed label has a statistics entry |
| Normalizer.NormalizerRunAll | DataNormalization.py:97-103 | on success the result is the normalized frame |
| Normalizer.NormalizeListed | DataNormalization.py:91 | the summary loop iterates the selected list, or the statistics keys when a selected column is labelled `columns_to_normalize` |
| Normalizer.NormalizerRunAllOk | DataNormalization.py:97-103 | `run_all` returns the normalized frame whenever no selected column is labelled `columns_to_normalize` |
| Normalizer.NormalizerListCollision | DataNormalization.py:50-94 | on a fresh normalizer, a selected column labelled `columns_to_normalize` (and none labelled `scaler`) makes `run_all` raise KeyError(`scaler`) |

## Left out

- Logging and printing: `log`, `verbose` and the formatted lines of both `summary` methods are output only. The model keeps the lookups those lines perform, because they can raise.
- `pd.to_datetime` parsing is foreign code, so it is the parameter `parse`. The parser is given the whole column as well as the value, so a format inferred from the column can make a cell NaT that would parse on its own. Which formats pandas infers is not modelled; only the coercion of failures to NaT is.
- The sklearn `StandardScaler`/`RobustScaler` fit (mean, standard deviation, median, IQR, square root) is foreign floating-point code, so it is the parameter `fit`. The properties "mean ≈ 0, standard deviation ≈ 1" and "median ≈ 0" after scaling are therefore not stated.
- Floating point: numbers are exact reals. Rounding, infinities and NaN as a number are not modelled; NaN appears only as a missing cell.
- dtype inference: a column's kind is given. Mixed-type object columns and integer-versus-float dtypes are not modelled.
- The pandas row index: `drop_duplicates` keeps the original index labels, while the model keeps only positions.
- Calendar.CivilFromDays: its general contract gives only the month and day ranges; the calendar itself is pinned down by lemmas at four concrete dates, not by a general round-trip lemma.
- Dedup.FirstIndicesSpec: describes `duplicated()` on the rows of a frame with at least one column. On a frame with rows but no columns pandas flags nothing, and that case is stated by `Dedup.DropDuplicateRowsSpec` through `FlaggedRow`.
- Dedup.DropDuplicatesSpec: describes `drop_duplicates()` on the rows of a frame with at least one column; "no two kept rows are equal" does not hold for a frame without columns, which pandas returns unchanged. `Dedup.DropDuplicateRowsSpec` states both cases.
- Errors discard partial updates: the source changes `self.df` in place and then raises, while the model returns an `Err` and keeps nothing. A caller who catches the exception would still see the partial changes, and the model does not describe that state. Two stages are affected. In `standardize_units`, earlier `value` columns have already been divided by 1e6 when a later one raises TypeError. In `clean_outliers_iqr(columns)`, outliers in earlier listed columns have already been set to NaN, and not refilled, when a later label raises; `outlier_columns` is not written.
- Strings.Lower: lower-cases ASCII letters only, whereas Python's `str.lower` also maps non-ASCII letters.
- Outliers.TreatColumnsFlags: stated only for column lists without repeated labels. With a repeated label the fold treats the column again after masking, and can report the label twice; that is modelled but has no lemma.
- Outliers.TreatColumns: the fences of a datetime column are exact rational nanosecond counts, whereas pandas rounds the interpolated quartiles and the scaled IQR to whole nanoseconds, so a timestamp within a nanosecond of a fence may be classified differently.
- Outliers.TreatColumnsCells: stated only for column lists without repeated labels. A repeated label is modelled (the fold re-masks the column) but has no separate lemma.
- Normalizer.NormalizeRange: stated only for a non-negative fitted scale and a column without missing cells, the case both sklearn scalers produce. A negative scale would swap the ends.
- Cleaner.CleanOutliers: well-formedness is stated only for the call without a column list, the one `run_all` makes.
- `np.min` on an empty selection is not modelled: a selected column has more than two distinct values, so it is never empty.
- Column labels: only string labels are modelled. pandas accepts any hashable label, and `pd.DataFrame(ndarray)` gives integer labels by default. A non-string label makes `'value' in col` raise TypeError in `standardize_units` (DataCleaning.py:93), and makes `col.lower()` raise AttributeError in `detect_columns_to_scale` (DataNormalization.py:44) for a numeric column that is not excluded. So `Cleaner.RunAll`'s failure condition and `Normalizer.NormalizerRunAllOk` hold for frames whose labels are all strings.
- Repeated column labels: every stage requires distinct labels (`DistinctNames`). pandas accepts repeated labels, but `df[label]` then selects several columns, so each label-based step would have to be modelled per sub-frame. Frames with repeated labels are excluded.

=== FILE: calendar.dfy ===
/** The calendar fields pandas' `.dt.year`, `.dt.month` and `.dt.dayofweek`
    read off a datetime64[ns] value: proleptic Gregorian calendar, days
    counted from 1970-01-01, Monday = 0. */
module Calendar {

  const NanosPerDay: int := 86_400_000_000_000

  /** Days in a 400-year era, a regular century and a 4-year block. */
  const EraDays: int := 146097
  const CenturyDays: int := 36524
  const QuadDays: int := 1461

  datatype Date = Date(year: int, month: int, day: int)

  /** The day a timestamp falls on; the division floors, so an instant
      before the epoch belongs to the day it starts in. */
  function DayNumber(ns: int): (d: int)
    ensures d * NanosPerDay <= ns < (d + 1) * NanosPerDay
  {
    ns / NanosPerDay
  }

  /** A day of an era (eras start on 0000-03-01, so each year of the era
      runs March to February and its leap day, if any, is its last day)
      split into year of the era and day of that year. The first three
      centuries of an era are one day short of the fourth, and the last
      4-year block of those centuries is one day short of the others. */
  datatype EraDay = EraDay(yoe: int, doy: int)

  function SplitEra(doe: int): (e: EraDay)
    requires 0 <= doe < EraDays
    ensures 0 <= e.yoe < 400 && 0 <= e.doy <= 365
    ensures e.doy == 365 ==> (e.yoe + 1) % 4 == 0
  {
    var century := if doe / CenturyDays < 3 then doe / CenturyDays else 3;
    var rem := doe - CenturyDays * century;
    var quad := rem / QuadDays;
    var rem' := rem - QuadDays * quad;
    var year := if rem' / 365 < 3 then rem' / 365 else 3;
    EraDay(100 * century + 4 * quad + year, rem' - 365 * year)
  }

  /** Day of a March-based year (0-365) to month (1-12) and day (1-31),
      with the month lengths 31, 30, 31, 30, 31, 31, 30, 31, 30, 31, 31, 29. */
  function MonthDay(doy: int): (md: (int, int))
    requires 0 <= doy <= 365
    ensures 1 <= md.0 <= 12 && 1 <= md.1 <= 31
  {
    var mp := (5 * doy + 2) / 153;
    var day := doy - (153 * mp + 2) / 5 + 1;
    (if mp < 10 then mp + 3 else mp - 9, day)
  }

  /** Days since 1970-01-01 to the civil date; January and February belong
      to the following calendar year of their March-based year. */
  function CivilFromDays(days: int): (d: Date)
    ensures 1 <= d.month <= 12 && 1 <= d.day <= 31
  {
    var z := days + 719468;
    var era := z / EraDays;
    var e := SplitEra(z - era * EraDays);
    var md := MonthDay(e.doy);
    var year := e.yoe + era * 400;
    Date(if md.0 <= 2 then year + 1 else year, md.0, md.1)
  }

  /** `.dt.dayofweek`: 1970-01-01 was a Thursday (3). */
  function DayOfWeek(days: int): (w: int)
    ensures 0 <= w < 7
  {
    (days + 3) % 7
  }

  /** The epoch is 1970-01-01, a Thursday. */
  lemma Epoch()
    ensures CivilFromDays(0) == Date(1970, 1, 1)
    ensures DayOfWeek(0) == 3
  {
    assert 719468 / EraDays == 4;
    assert 135080 / CenturyDays == 3 && 25508 / QuadDays == 17 && 671 / 365 == 1;
    assert SplitEra(135080) == EraDay(369, 306);
    assert MonthDay(306) == (1, 1);
  }

  /** The day before the epoch is 1969-12-31. */
  lemma DayBeforeEpoch()
    ensures CivilFromDays(-1) == Date(1969, 12, 31)
  {
    assert 719467 / EraDays == 4;
    assert 135079 / CenturyDays == 3 && 25507 / QuadDays == 17 && 670 / 365 == 1;
    assert SplitEra(135079) == EraDay(369, 305);
    assert MonthDay(305) == (12, 31);
  }

  /** Day 11016 is the leap day 2000-02-29, the last day of an era. */
  lemma LeapDay2000()
    ensures CivilFromDays(11016) == Date(2000, 2, 29)
  {
    assert 730484 / EraDays == 4;
    assert SplitEra(146096) == EraDay(399, 365);
    assert MonthDay(365) == (2, 29);
  }

  /** Day 19553 is 2023-07-15, a Saturday. */
  lemma Saturday2023()
    ensures CivilFromDays(19553) == Date(2023, 7, 15)
    ensures DayOfWeek(19553) == 5
  {
    assert 739021 / EraDays == 5;
    assert SplitEra(8536) == EraDay(23, 136);
    assert MonthDay(136) == (7, 15);
  }
}

=== FILE: cleaner.dfy ===
/** The `DataCleaner` class: a copy of the input frame, the working frame,
    and the `report` dictionary each stage writes one entry of. Every stage
    returns the new state; `run_all` chains them in a fixed order. */
module Cleaner {
  import opened Frame
  import opened Fill
  import opened Dedup
  import opened Outliers
  import opened Units
  import opened Calendar
  import opened Strings

  /** The `report` dictionary: one optional field per key, `None` until the
      stage that writes the key has run. */
  datatype Report = Report(
    missingValuesFixed: Option<int>,
    duplicatesRemoved: Option<nat>,
    outlierColumns: Option<seq<string>>,
    scaledColumns: Option<seq<string>>,
    dateFeaturesAdded: Option<seq<string>>,
    rowsBefore: Option<nat>,
    rowsAfter: Option<nat>,
    columns: Option<nat>)

  const EmptyReport: Report := Report(None, None, None, None, None, None, None, None)

  /** `verbose` only switches logging, which is not modelled. */
  datatype Cleaner = Cleaner(original: Table, df: Table, report: Report)

  predicate Valid(c: Cleaner) {
    Rectangular(c.df) && DistinctNames(c.df)
  }

  function NewCleaner(t: Table): (c: Cleaner)
    ensures c.original == c.df == t && c.report == EmptyReport
  {
    Cleaner(t, t, EmptyReport)
  }

  const TimeLabel: string := "time"

  // ---------------------------------------------------------------------
  // convert_datetime

  /** `pd.to_datetime(errors='coerce')` is foreign code. It sees the whole
      column (pandas infers one format from the column and applies it to
      every cell) and the value to read, and returns nanoseconds or nothing. */
  type Parser = (seq<Cell>, Value) -> Option<int>

  /** One cell of the converted column `col`: a missing cell and a timestamp
      stay as they are; any other value goes through the parser, and a value
      it cannot read becomes NaT. */
  function Coerce(parse: Parser, col: seq<Cell>, cell: Cell): (r: Cell)
    ensures r.None? || r.value.Time?
    ensures cell.None? ==> r.None?
    ensures cell.Some? && cell.value.Time? ==> r == cell
  {
    match cell
    case None => None
    case Some(Time(ns)) => Some(Time(ns))
    case Some(v) => if parse(col, v).Some? then Some(Time(parse(col, v).value)) else None
  }

  function CoerceColumn(parse: Parser, c: seq<Cell>): (r: seq<Cell>)
    ensures |r| == |c| && forall i :: 0 <= i < |c| ==> r[i] == Coerce(parse, c, c[i])
  {
    seq(|c|, i requires 0 <= i < |c| => Coerce(parse, c, c[i]))
  }

  /** The `time` column becomes a datetime column of coerced cells; a frame
      without it raises KeyError; nothing else changes. */
  function ConvertDatetime(c: Cleaner, parse: Parser): (r: Result<Cleaner>)
    requires Valid(c)
    ensures r.Err? <==> !HasColumn(c.df, TimeLabel)
    ensures r.Err? ==> r.error == KeyError(TimeLabel)
    ensures r.Ok? ==> Valid(r.value) && r.value.original == c.original && r.value.report == c.report
    ensures r.Ok? ==> r.value.df.cols == c.df.cols[IndexOf(c.df, TimeLabel).value := Column(TimeLabel, DateTime)]
    ensures r.Ok? ==> |r.value.df.rows| == |c.df.rows| && |r.value.df.cols| == |c.df.cols|
    ensures r.Ok? ==> forall k :: 0 <= k < |c.df.cols| ==> r.value.df.cols[k].name == c.df.cols[k].name
    ensures r.Ok? ==> forall i, j :: 0 <= i < |c.df.rows| && 0 <= j < |c.df.cols| ==>
              r.value.df.rows[i][j] == if c.df.cols[j].name == TimeLabel then Coerce(parse, ColumnOf(c.df, j), c.df.rows[i][j]) else c.df.rows[i][j]
    ensures r.Ok? && WellFormed(c.df) ==> WellFormed(r.value.df)
  {
    match IndexOf(c.df, TimeLabel)
    case None => Err(KeyError(TimeLabel))
    case Some(j) =>
      var t := c.df;
      var t' := SetColumn(t, TimeLabel, DateTime, CoerceColumn(parse, ColumnOf(t, j)));
      assert forall k :: 0 <= k < |t.cols| && t.cols[k].name == TimeLabel ==> k == j;
      assert |t'.cols| == |t.cols|;
      assert forall k :: 0 <= k < |t.cols| ==> t'.cols[k].name == t.cols[k].name by {
        forall k | 0 <= k < |t.cols| ensures t'.cols[k].name == t.cols[k].name {
          if k == j { assert t'.cols[k].kind == DateTime; }
        }
      }
      Ok(c.(df := t'))
  }

  /** Parsing is applied once: converting an already converted frame
      changes nothing. */
  lemma ConvertDatetimeIdempotent(c: Cleaner, parse: Parser)
    requires Valid(c) && ConvertDatetime(c, parse).Ok?
    ensures ConvertDatetime(ConvertDatetime(c, parse).value, parse) == ConvertDatetime(c, parse)
  {
    var c1 := ConvertDatetime(c, parse).value;
    var c2 := ConvertDatetime(c1, parse).value;
    var j := IndexOf(c.df, TimeLabel).value;
    assert IndexOf(c1.df, TimeLabel) == Some(j);
    assert c2.df.cols == c1.df.cols;
    forall i | 0 <= i < |c1.df.rows| ensures c2.df.rows[i] == c1.df.rows[i] {
      forall k | 0 <= k < |c1.df.cols| ensures c2.df.rows[i][k] == c1.df.rows[i][k] {
        if c1.df.cols[k].name == TimeLabel {
          assert c.df.cols[k].name == TimeLabel;
        }
      }
    }
    assert c2.df.rows == c1.df.rows;
  }

  // ---------------------------------------------------------------------
  // handle_missing_values

  /** Gap filling; `missing_values_fixed` is the missing count before minus
      the count after, which is exactly the number of missing cells in the
      columns that had some value to copy, so it is never negative. */
  function HandleMissingValues(c: Cleaner): (r: Cleaner)
    requires Valid(c)
    ensures Valid(r) && r.original == c.original
    ensures r.df == FillTable(c.df)
    ensures r.report == c.report.(missingValuesFixed := r.report.missingValuesFixed)
    ensures r.report.missingValuesFixed == Some(MissingCount(c.df) - MissingCount(r.df))
    ensures r.report.missingValuesFixed == Some(Fixable(c.df, 0))
    ensures 0 <= r.report.missingValuesFixed.value <= MissingCount(c.df)
  {
    FillTableFixes(c.df);
    Cleaner(c.original, FillTable(c.df), c.report.(missingValuesFixed := Some(MissingCount(c.df) - MissingCount(FillTable(c.df)))))
  }

  // ---------------------------------------------------------------------
  // remove_duplicates

  /** Drop repeated rows; `duplicates_removed` is the flag count taken
      before dropping, which equals the number of rows that went. */
  function RemoveDuplicates(c: Cleaner): (r: Cleaner)
    requires Valid(c)
    ensures Valid(r) && r.original == c.original
    ensures r.df.cols == c.df.cols
    ensures r.report == c.report.(duplicatesRemoved := r.report.duplicatesRemoved)
    ensures r.report.duplicatesRemoved.Some?
    ensures |r.df.rows| + r.report.duplicatesRemoved.value == |c.df.rows|
    ensures |c.df.cols| > 0 ==> NoDuplicates(r.df.rows)
    ensures |c.df.cols| == 0 ==> r.df == c.df
    ensures forall x :: x in r.df.rows <==> x in c.df.rows
    ensures WellFormed(c.df) ==> WellFormed(r.df)
  {
    var n := DuplicatedRows(c.df);
    DropDuplicateRowsSpec(c.df);
    Cleaner(c.original, DropDuplicateRows(c.df), c.report.(duplicatesRemoved := Some(n)))
  }

  // ---------------------------------------------------------------------
  // clean_outliers_iqr

  /** The outlier stage; with no column list it cannot fail. */
  function CleanOutliers(c: Cleaner, columns: Option<seq<string>>): (r: Result<Cleaner>)
    requires Valid(c)
    ensures columns.None? ==> r.Ok?
    ensures r.Ok? ==> Valid(r.value) && r.value.original == c.original
    ensures r.Ok? ==> r.value.df.cols == c.df.cols && |r.value.df.rows| == |c.df.rows|
    ensures r.Ok? ==> r.value.report == c.report.(outlierColumns := r.value.report.outlierColumns)
    ensures r.Ok? ==> r.value.report.outlierColumns.Some?
    ensures r.Ok? && columns.None? && WellFormed(c.df) ==> WellFormed(r.value.df)
  {
    match CleanOutliersIqr(c.df, columns)
    case Err(e) => Err(e)
    case Ok(v) =>
      assert columns.None? && WellFormed(c.df) ==> WellFormed(v.0) by {
        if columns.None? && WellFormed(c.df) {
          CleanOutliersWellFormed(c.df);
        }
      }
      Ok(Cleaner(c.original, v.0, c.report.(outlierColumns := Some(v.1))))
  }

  // ---------------------------------------------------------------------
  // standardize_units

  function StandardizeUnitsStage(c: Cleaner): (r: Result<Cleaner>)
    requires Valid(c)
    ensures r.Err? <==> exists j :: 0 <= j < |c.df.cols| && Incomparable(c.df, j)
    ensures r.Err? ==> r.error.TypeError?
    ensures r.Ok? ==> Valid(r.value) && r.value.original == c.original
    ensures r.Ok? ==> r.value.df.cols == c.df.cols && |r.value.df.rows| == |c.df.rows|
    ensures r.Ok? ==> r.value.report == c.report.(scaledColumns := r.value.report.scaledColumns)
    ensures r.Ok? ==> r.value.report.scaledColumns.Some?
    ensures r.Ok? && WellFormed(c.df) ==> WellFormed(r.value.df)
  {
    match StandardizeUnits(c.df)
    case Err(e) => Err(e)
    case Ok(v) =>
      assert WellFormed(c.df) ==> WellFormed(v.0) by {
        if WellFormed(c.df) {
          StandardizeUnitsWellFormed(c.df);
        }
      }
      Ok(Cleaner(c.original, v.0, c.report.(scaledColumns := Some(v.1))))
  }

  // ---------------------------------------------------------------------
  // add_date_features

  datatype Field = Year | Month | Weekday

  const FeatureLabels: seq<string> := ["year", "month", "dayofweek"]

  /** `.dt.year`, `.dt.month`, `.dt.dayofweek` of one cell; NaT gives NaN. */
  function DateField(cell: Cell, f: Field): (r: Cell)
    ensures r.None? <==> !(cell.Some? && cell.value.Time?)
    ensures r.Some? ==> r.value.Num?
    ensures r.Some? && f == Month ==> 1.0 <= r.value.x <= 12.0
    ensures r.Some? && f == Weekday ==> 0.0 <= r.value.x <= 6.0
  {
    match cell
    case Some(Time(ns)) =>
      var days := DayNumber(ns);
      var d := CivilFromDays(days);
      Some(Num(match f
               case Year => d.year as real
               case Month => d.month as real
               case Weekday => DayOfWeek(days) as real))
    case _ => None
  }

  function FieldColumn(c: seq<Cell>, f: Field): (r: seq<Cell>)
    ensures |r| == |c| && forall i :: 0 <= i < |c| ==> r[i] == DateField(c[i], f)
  {
    seq(|c|, i requires 0 <= i < |c| => DateField(c[i], f))
  }

  /** The label a feature is stored under. */
  function Label(f: Field): string {
    match f
    case Year => FeatureLabels[0]
    case Month => FeatureLabels[1]
    case Weekday => FeatureLabels[2]
  }

  /** `df[label] = values` for the three features in turn: a label that
      exists is overwritten in place (and becomes numeric), a new one is
      appended. */
  function SetFeatures(t: Table, times: seq<Cell>): (r: Table)
    requires Rectangular(t) && DistinctNames(t) && |times| == |t.rows|
    ensures Rectangular(r) && DistinctNames(r) && |r.rows| == |t.rows|
  {
    var t1 := SetColumn(t, Label(Year), Numeric, FieldColumn(times, Year));
    var t2 := SetColumn(t1, Label(Month), Numeric, FieldColumn(times, Month));
    SetColumn(t2, Label(Weekday), Numeric, FieldColumn(times, Weekday))
  }

  /** The features are read off the `time` column. Without a `time` column
      the lookup raises KeyError; a `time` column that is not datetime has
      no `.dt` accessor and raises AttributeError. */
  function AddDateFeatures(c: Cleaner): (r: Result<Cleaner>)
    requires Valid(c)
    ensures !HasColumn(c.df, TimeLabel) ==> r == Err(KeyError(TimeLabel))
    ensures HasColumn(c.df, TimeLabel) && c.df.cols[IndexOf(c.df, TimeLabel).value].kind != DateTime ==>
              r == Err(AttributeError(TimeLabel))
    ensures r.Ok? <==> HasColumn(c.df, TimeLabel) && c.df.cols[IndexOf(c.df, TimeLabel).value].kind == DateTime
    ensures r.Ok? ==> Valid(r.value) && r.value.original == c.original && |r.value.df.rows| == |c.df.rows|
    ensures r.Ok? ==> r.value.df == SetFeatures(c.df, ColumnOf(c.df, IndexOf(c.df, TimeLabel).value))
    ensures r.Ok? ==> r.value.report == c.report.(dateFeaturesAdded := Some(FeatureLabels))
  {
    match IndexOf(c.df, TimeLabel)
    case None => Err(KeyError(TimeLabel))
    case Some(tj) =>
      if c.df.cols[tj].kind != DateTime then Err(AttributeError(TimeLabel))
      else Ok(Cleaner(c.original, SetFeatures(c.df, ColumnOf(c.df, tj)), c.report.(dateFeaturesAdded := Some(FeatureLabels))))
  }

  /** An assignment to another label leaves column `j` where it was, unchanged. */
  lemma SetColumnKept(t: Table, name: string, kind: Kind, values: seq<Cell>, j: nat)
    requires Rectangular(t) && DistinctNames(t) && |values| == |t.rows|
    requires j < |t.cols| && t.cols[j].name != name
    ensures j < |SetColumn(t, name, kind, values).cols| && SetColumn(t, name, kind, values).cols[j] == t.cols[j]
    ensures ColumnOf(SetColumn(t, name, kind, values), j) == ColumnOf(t, j)
  {
  }

  /** A column of the assigned frame with another label was already there,
      unchanged. */
  lemma SetColumnOther(t: Table, name: string, kind: Kind, values: seq<Cell>, j: nat)
    requires Rectangular(t) && DistinctNames(t) && |values| == |t.rows|
    requires j < |SetColumn(t, name, kind, values).cols| && SetColumn(t, name, kind, values).cols[j].name != name
    ensures j < |t.cols| && SetColumn(t, name, kind, values).cols[j] == t.cols[j]
    ensures ColumnOf(SetColumn(t, name, kind, values), j) == ColumnOf(t, j)
  {
    if !HasColumn(t, name) {
      assert j != |t.cols|;
    }
  }

  /** After the assignments the labels are the old ones plus the three
      features, and between zero and three columns were added. */
  lemma SetFeaturesLabels(t: Table, times: seq<Cell>)
    requires Rectangular(t) && DistinctNames(t) && |times| == |t.rows|
    ensures forall n :: HasColumn(SetFeatures(t, times), n) <==> HasColumn(t, n) || n in FeatureLabels
    ensures |t.cols| <= |SetFeatures(t, times).cols| <= |t.cols| + 3
  {
    var t1 := SetColumn(t, Label(Year), Numeric, FieldColumn(times, Year));
    var t2 := SetColumn(t1, Label(Month), Numeric, FieldColumn(times, Month));
    var t3 := SetColumn(t2, Label(Weekday), Numeric, FieldColumn(times, Weekday));
    assert SetFeatures(t, times) == t3;
    SetColumnLabels(t, Label(Year), Numeric, FieldColumn(times, Year));
    SetColumnLabels(t1, Label(Month), Numeric, FieldColumn(times, Month));
    SetColumnLabels(t2, Label(Weekday), Numeric, FieldColumn(times, Weekday));
  }

  /** Every column other than the three features keeps its position, dtype
      and cells. */
  lemma SetFeaturesKeep(t: Table, times: seq<Cell>, j: nat)
    requires Rectangular(t) && DistinctNames(t) && |times| == |t.rows|
    requires j < |t.cols| && t.cols[j].name !in FeatureLabels
    ensures j < |SetFeatures(t, times).cols| && SetFeatures(t, times).cols[j] == t.cols[j]
    ensures ColumnOf(SetFeatures(t, times), j) == ColumnOf(t, j)
  {
    var t1 := SetColumn(t, Label(Year), Numeric, FieldColumn(times, Year));
    var t2 := SetColumn(t1, Label(Month), Numeric, FieldColumn(times, Month));
    var t3 := SetColumn(t2, Label(Weekday), Numeric, FieldColumn(times, Weekday));
    assert SetFeatures(t, times) == t3;
    SetColumnKept(t, Label(Year), Numeric, FieldColumn(times, Year), j);
    SetColumnKept(t1, Label(Month), Numeric, FieldColumn(times, Month), j);
    SetColumnKept(t2, Label(Weekday), Numeric, FieldColumn(times, Weekday), j);
  }

  /** The column labelled with a feature is numeric and holds that field of
      the timestamp in the same row. */
  lemma SetFeaturesValues(t: Table, times: seq<Cell>, f: Field, j: nat)
    requires Rectangular(t) && DistinctNames(t) && |times| == |t.rows|
    requires j < |SetFeatures(t, times).cols| && SetFeatures(t, times).cols[j].name == Label(f)
    ensures SetFeatures(t, times).cols[j].kind == Numeric
    ensures ColumnOf(SetFeatures(t, times), j) == FieldColumn(times, f)
  {
    var t1 := SetColumn(t, Label(Year), Numeric, FieldColumn(times, Year));
    var t2 := SetColumn(t1, Label(Month), Numeric, FieldColumn(times, Month));
    var t3 := SetColumn(t2, Label(Weekday), Numeric, FieldColumn(times, Weekday));
    assert SetFeatures(t, times) == t3;
    match f
    case Weekday =>
      assert ColumnOf(t3, j) == FieldColumn(times, Weekday);
    case Month =>
      SetColumnOther(t2, Label(Weekday), Numeric, FieldColumn(times, Weekday), j);
      assert ColumnOf(t2, j) == FieldColumn(times, Month);
    case Year =>
      SetColumnOther(t2, Label(Weekday), Numeric, FieldColumn(times, Weekday), j);
      SetColumnOther(t1, Label(Month), Numeric, FieldColumn(times, Month), j);
      assert ColumnOf(t1, j) == FieldColumn(times, Year);
  }

  /** The new columns hold numbers only, so a well-formed frame stays well formed. */
  lemma SetFeaturesWellFormed(t: Table, times: seq<Cell>)
    requires WellFormed(t) && |times| == |t.rows|
    ensures WellFormed(SetFeatures(t, times))
  {
    var r := SetFeatures(t, times);
    forall i, j | 0 <= i < |r.rows| && 0 <= j < |r.cols| ensures Fits(r.cols[j].kind, r.rows[i][j]) {
      SetFeaturesFits(t, times, i, j);
    }
  }

  lemma SetFeaturesFits(t: Table, times: seq<Cell>, i: nat, j: nat)
    requires WellFormed(t) && |times| == |t.rows|
    requires i < |t.rows| && j < |SetFeatures(t, times).cols|
    ensures Fits(SetFeatures(t, times).cols[j].kind, SetFeatures(t, times).rows[i][j])
  {
    var n := SetFeatures(t, times).cols[j].name;
    if n == Label(Year) {
      SetFeaturesFitsFeature(t, times, Year, i, j);
    } else if n == Label(Month) {
      SetFeaturesFitsFeature(t, times, Month, i, j);
    } else if n == Label(Weekday) {
      SetFeaturesFitsFeature(t, times, Weekday, i, j);
    } else {
      SetFeaturesFitsOther(t, times, i, j);
    }
  }

  lemma SetFeaturesFitsFeature(t: Table, times: seq<Cell>, f: Field, i: nat, j: nat)
    requires Rectangular(t) && DistinctNames(t) && |times| == |t.rows|
    requires i < |t.rows| && j < |SetFeatures(t, times).cols| && SetFeatures(t, times).cols[j].name == Label(f)
    ensures Fits(SetFeatures(t, times).cols[j].kind, SetFeatures(t, times).rows[i][j])
  {
    var r := SetFeatures(t, times);
    SetFeaturesValues(t, times, f, j);
    assert r.rows[i][j] == ColumnOf(r, j)[i] == DateField(times[i], f);
  }

  lemma SetFeaturesFitsOther(t: Table, times: seq<Cell>, i: nat, j: nat)
    requires WellFormed(t) && |times| == |t.rows|
    requires i < |t.rows| && j < |SetFeatures(t, times).cols| && SetFeatures(t, times).cols[j].name !in FeatureLabels
    ensures Fits(SetFeatures(t, times).cols[j].kind, SetFeatures(t, times).rows[i][j])
  {
    var r := SetFeatures(t, times);
    var n := r.cols[j].name;
    SetFeaturesLabels(t, times);
    assert HasColumn(r, n);
    var k :| 0 <= k < |t.cols| && t.cols[k].name == n;
    SetFeaturesKeep(t, times, k);
    assert k == j;
    assert ColumnOf(r, k)[i] == ColumnOf(t, k)[i];
    assert Fits(t.cols[k].kind, t.rows[i][k]);
  }

  /** A timestamp on 2023-07-15 yields year 2023, month 7 and weekday 5 (Saturday). */
  lemma DateFieldExample(ns: int)
    requires 19553 * NanosPerDay <= ns < 19554 * NanosPerDay
    ensures DateField(Some(Time(ns)), Year) == Some(Num(2023.0))
    ensures DateField(Some(Time(ns)), Month) == Some(Num(7.0))
    ensures DateField(Some(Time(ns)), Weekday) == Some(Num(5.0))
  {
    assert DayNumber(ns) == 19553;
    Saturday2023();
  }

  // ---------------------------------------------------------------------
  // summary and run_all

  /** Records the row counts before and after and the final column count. */
  function Summary(c: Cleaner): (r: Cleaner)
    ensures r.df == c.df && r.original == c.original
    ensures r.report == c.report.(rowsBefore := Some(|c.original.rows|),
                                  rowsAfter := Some(|c.df.rows|),
                                  columns := Some(|c.df.cols|))
  {
    Cleaner(c.original, c.df, c.report.(rowsBefore := Some(|c.original.rows|),
                                        rowsAfter := Some(|c.df.rows|),
                                        columns := Some(|c.df.cols|)))
  }

  /** Every key of the report has been written. */
  predicate Complete(rep: Report) {
    rep.missingValuesFixed.Some? && rep.duplicatesRemoved.Some? && rep.outlierColumns.Some? &&
    rep.scaledColumns.Some? && rep.dateFeaturesAdded.Some? && rep.rowsBefore.Some? &&
    rep.rowsAfter.Some? && rep.columns.Some?
  }

  /** The frame has a `time` column of datetime dtype. */
  predicate TimeIsDateTime(t: Table) {
    HasColumn(t, TimeLabel) && t.cols[IndexOf(t, TimeLabel).value].kind == DateTime
  }

  /** The two frames carry the same labels in the same order. */
  predicate SameNames(a: Table, b: Table) {
    |a.cols| == |b.cols| && forall k :: 0 <= k < |a.cols| ==> a.cols[k].name == b.cols[k].name
  }

  /** handle_missing_values, remove_duplicates and clean_outliers_iqr():
      the three stages in the middle of `run_all`, none of which can raise. */
  function Repair(c: Cleaner): (r: Cleaner)
    requires Valid(c)
    ensures Valid(r) && r.original == c.original && r.df.cols == c.df.cols
    ensures r.report.missingValuesFixed.Some? && r.report.missingValuesFixed.value >= 0
    ensures r.report.duplicatesRemoved.Some? && r.report.outlierColumns.Some?
    ensures |r.df.rows| + r.report.duplicatesRemoved.value == |c.df.rows|
    ensures WellFormed(c.df) ==> WellFormed(r.df)
  {
    CleanOutliers(RemoveDuplicates(HandleMissingValues(c)), None).value
  }

  /** The conversion touches only `time`, which is not a value column, so
      standardize_units would raise on the same columns before and after. */
  lemma ConvertIncomparable(c: Cleaner, parse: Parser)
    requires Valid(c) && ConvertDatetime(c, parse).Ok?
    ensures forall j :: 0 <= j < |c.df.cols| ==>
              Incomparable(ConvertDatetime(c, parse).value.df, j) == Incomparable(c.df, j)
  {
    var t, t' := c.df, ConvertDatetime(c, parse).value.df;
    ContainsShorter(TimeLabel, "value");
    forall j | 0 <= j < |t.cols| ensures Incomparable(t', j) == Incomparable(t, j) {
      if t.cols[j].name == TimeLabel {
        assert !IsValueColumn(t.cols[j]) && !IsValueColumn(t'.cols[j]);
      } else {
        assert t'.cols[j] == t.cols[j];
        assert ColumnOf(t', j) == ColumnOf(t, j);
      }
    }
  }

  /** Filling, de-duplication and the default outlier pass keep every
      column's kind and whether a text column holds a value, so
      standardize_units raises on the same columns before and after. */
  lemma RepairIncomparable(c: Cleaner)
    requires Valid(c)
    ensures forall j :: 0 <= j < |c.df.cols| ==> Incomparable(Repair(c).df, j) == Incomparable(c.df, j)
  {
    var c1 := HandleMissingValues(c);
    var c2 := RemoveDuplicates(c1);
    FillTablePresence(c.df);
    DropDuplicateRowsPresence(c1.df);
    CleanOutliersPresence(c2.df);
    forall j | 0 <= j < |c.df.cols| ensures Incomparable(Repair(c).df, j) == Incomparable(c.df, j) {
      if c.df.cols[j].kind == Text {
        assert AllMissing(ColumnOf(c1.df, j)) == AllMissing(ColumnOf(c.df, j));
        assert AllMissing(ColumnOf(c2.df, j)) == AllMissing(ColumnOf(c1.df, j));
      }
    }
  }

  /** The stages of `run_all` up to standardize_units: only the conversion
      can raise, and it leaves a datetime `time` column behind. */
  method Prepare(c: Cleaner, parse: Parser) returns (r: Result<Cleaner>)
    requires Valid(c)
    ensures r.Err? <==> !HasColumn(c.df, TimeLabel)
    ensures r.Err? ==> r.error == KeyError(TimeLabel)
    ensures r.Ok? ==> Valid(r.value) && r.value.original == c.original
    ensures r.Ok? ==> TimeIsDateTime(r.value.df) && SameNames(r.value.df, c.df)
    ensures r.Ok? ==> r.value.report.missingValuesFixed.Some? && r.value.report.missingValuesFixed.value >= 0
    ensures r.Ok? ==> r.value.report.duplicatesRemoved.Some? && r.value.report.outlierColumns.Some?
    ensures r.Ok? ==> |r.value.df.rows| + r.value.report.duplicatesRemoved.value == |c.df.rows|
    ensures r.Ok? && WellFormed(c.df) ==> WellFormed(r.value.df)
    ensures r.Ok? ==> forall j :: 0 <= j < |c.df.cols| ==> Incomparable(r.value.df, j) == Incomparable(c.df, j)
  {
    var converted := ConvertDatetime(c, parse);
    if converted.Err? {
      return Err(converted.error);
    }
    var c1 := converted.value;
    var j := IndexOf(c.df, TimeLabel).value;
    assert c1.df.cols[j] == Column(TimeLabel, DateTime);
    assert IndexOf(c1.df, TimeLabel) == Some(j);
    ConvertIncomparable(c, parse);
    RepairIncomparable(c1);
    r := Ok(Repair(c1));
  }

  /** The stages of `run_all` after standardize_units: add_date_features,
      which cannot raise on a datetime `time` column, then summary. The
      labels become the old ones plus the three features. */
  method Finish(c: Cleaner) returns (r: Cleaner)
    requires Valid(c) && TimeIsDateTime(c.df)
    ensures Valid(r) && r.original == c.original && |r.df.rows| == |c.df.rows|
    ensures r.report == c.report.(dateFeaturesAdded := Some(FeatureLabels), rowsBefore := Some(|c.original.rows|),
                                  rowsAfter := Some(|c.df.rows|), columns := Some(|r.df.cols|))
    ensures forall n :: HasColumn(r.df, n) <==> HasColumn(c.df, n) || n in FeatureLabels
    ensures WellFormed(c.df) ==> WellFormed(r.df)
  {
    var times := ColumnOf(c.df, IndexOf(c.df, TimeLabel).value);
    var a := AddDateFeatures(c).value;
    SetFeaturesLabels(c.df, times);
    if WellFormed(c.df) {
      SetFeaturesWellFormed(c.df, times);
    }
    r := Summary(a);
  }

  /** `run_all`: convert_datetime, handle_missing_values, remove_duplicates,
      clean_outliers_iqr, standardize_units, add_date_features, summary. The
      frame it returns is the final state's `df`. Only the `time` lookup and
      the unit comparison can raise; the date stage always finds a datetime
      `time` column because the first stage made one. A well-formed input
      gives a well-formed output, whose labels are the input's plus year,
      month and dayofweek. */
  method RunAll(c: Cleaner, parse: Parser) returns (r: Result<Cleaner>)
    requires Valid(c)
    ensures !HasColumn(c.df, TimeLabel) ==> r == Err(KeyError(TimeLabel))
    ensures r.Err? <==> !HasColumn(c.df, TimeLabel) || exists j :: 0 <= j < |c.df.cols| && Incomparable(c.df, j)
    ensures r.Err? ==> r.error == KeyError(TimeLabel) || r.error.TypeError?
    ensures r.Ok? ==> Valid(r.value) && r.value.original == c.original && Complete(r.value.report)
    ensures r.Ok? ==> r.value.report.missingValuesFixed.value >= 0
    ensures r.Ok? ==> |r.value.df.rows| + r.value.report.duplicatesRemoved.value == |c.df.rows|
    ensures r.Ok? ==> r.value.report.rowsAfter == Some(|r.value.df.rows|) &&
                      r.value.report.rowsBefore == Some(|c.original.rows|) &&
                      r.value.report.columns == Some(|r.value.df.cols|) &&
                      r.value.report.dateFeaturesAdded == Some(FeatureLabels)
    ensures r.Ok? && c.df == c.original ==> r.value.report.rowsAfter.value <= r.value.report.rowsBefore.value
    ensures r.Ok? && WellFormed(c.df) ==> WellFormed(r.value.df)
    ensures r.Ok? ==> forall n :: HasColumn(r.value.df, n) <==> HasColumn(c.df, n) || n in FeatureLabels
  {
    var prepared := Prepare(c, parse);
    if prepared.Err? {
      return Err(prepared.error);
    }
    var c4 := prepared.value;
    var scaled := StandardizeUnitsStage(c4);
    if scaled.Err? {
      return Err(scaled.error);
    }
    var c5 := scaled.value;
    assert IndexOf(c5.df, TimeLabel) == IndexOf(c4.df, TimeLabel);
    var done := Finish(c5);
    SameLabels(c5.df, c.df);
    r := Ok(done);
  }

  lemma SameLabels(a: Table, b: Table)
    requires SameNames(a, b)
    ensures forall n :: HasColumn(a, n) <==> HasColumn(b, n)
  {
    forall n ensures HasColumn(a, n) <==> HasColumn(b, n) {
      if HasColumn(a, n) {
        var k :| 0 <= k < |a.cols| && a.cols[k].name == n;
        assert b.cols[k].name == n;
      }
      if HasColumn(b, n) {
        var k :| 0 <= k < |b.cols| && b.cols[k].name == n;
        assert a.cols[k].name == n;
      }
    }
  }
}

=== FILE: dedup.dfy ===
/** Duplicate removal: `df.duplicated()` and `df.drop_duplicates()` with the
    default `keep='first'`. Two rows are duplicates when every cell is equal;
    missing cells compare equal to each other, as pandas treats NaN here. */
module Dedup {
  import opened Frame

  type Row = seq<Cell>

  /** Row `i` repeats some earlier row: the flag `df.duplicated()` raises. */
  predicate Duplicated(rows: seq<Row>, i: nat)
    requires i < |rows|
  {
    rows[i] in rows[..i]
  }

  /** `df.duplicated().sum()`. */
  function DuplicatedCount(rows: seq<Row>): (n: nat)
    ensures n <= |rows|
  {
    if |rows| == 0 then 0
    else DuplicatedCount(rows[..|rows| - 1]) + (if Duplicated(rows, |rows| - 1) then 1 else 0)
  }

  /** Positions of the rows that are not flagged, in ascending order. */
  function FirstIndices(rows: seq<Row>): (idx: seq<nat>)
    ensures forall k :: 0 <= k < |idx| ==> idx[k] < |rows|
  {
    if |rows| == 0 then []
    else
      var n := |rows| - 1;
      var p := FirstIndices(rows[..n]);
      if Duplicated(rows, n) then p else p + [n]
  }

  /** The positions are ascending, and a position is listed exactly when
      its row is not flagged. */
  lemma {:induction false} FirstIndicesSpec(rows: seq<Row>)
    ensures forall k :: 0 <= k < |FirstIndices(rows)| ==> !Duplicated(rows, FirstIndices(rows)[k])
    ensures forall a, b :: 0 <= a < b < |FirstIndices(rows)| ==> FirstIndices(rows)[a] < FirstIndices(rows)[b]
    ensures forall i :: 0 <= i < |rows| && !Duplicated(rows, i) ==> i in FirstIndices(rows)
  {
    if |rows| > 0 {
      var n := |rows| - 1;
      FirstIndicesSpec(rows[..n]);
      assert forall i :: 0 <= i < n ==> rows[..n][..i] == rows[..i];
    }
  }

  predicate NoDuplicates(rows: seq<Row>) {
    forall a, b :: 0 <= a < b < |rows| ==> rows[a] != rows[b]
  }

  /** `drop_duplicates()`: keep a row unless it repeats an earlier one. */
  function DropDuplicates(rows: seq<Row>): (r: seq<Row>)
    ensures |r| <= |rows|
  {
    if |rows| == 0 then []
    else
      var n := |rows| - 1;
      var p := DropDuplicates(rows[..n]);
      if Duplicated(rows, n) then p else p + [rows[n]]
  }

  /** The kept rows are exactly the first occurrences, in the original order;
      no two of them are equal; no distinct row is lost; and the number of
      dropped rows is the count `duplicated().sum()` reports. */
  lemma DropDuplicatesSpec(rows: seq<Row>)
    ensures |DropDuplicates(rows)| == |FirstIndices(rows)|
    ensures forall k :: 0 <= k < |DropDuplicates(rows)| ==>
              DropDuplicates(rows)[k] == rows[FirstIndices(rows)[k]]
    ensures NoDuplicates(DropDuplicates(rows))
    ensures forall x :: x in DropDuplicates(rows) <==> x in rows
    ensures |DropDuplicates(rows)| + DuplicatedCount(rows) == |rows|
  {
    DropDuplicatesIndices(rows);
    DropDuplicatesMembers(rows);
    DropDuplicatesDistinct(rows);
    DropDuplicatesCount(rows);
  }

  lemma {:induction false} DropDuplicatesIndices(rows: seq<Row>)
    ensures |DropDuplicates(rows)| == |FirstIndices(rows)|
    ensures forall k :: 0 <= k < |DropDuplicates(rows)| ==>
              DropDuplicates(rows)[k] == rows[FirstIndices(rows)[k]]
  {
    if |rows| > 0 {
      var n := |rows| - 1;
      var prefix := rows[..n];
      DropDuplicatesIndices(prefix);
      var p, idx := DropDuplicates(prefix), FirstIndices(prefix);
      var dd, fi := DropDuplicates(rows), FirstIndices(rows);
      if Duplicated(rows, n) {
        assert dd == p && fi == idx;
      } else {
        assert dd == p + [rows[n]] && fi == idx + [n];
      }
      forall k | 0 <= k < |dd| ensures dd[k] == rows[fi[k]] {
        if k < |p| {
          assert dd[k] == p[k] && fi[k] == idx[k] && idx[k] < n;
          assert prefix[idx[k]] == rows[idx[k]];
        }
      }
    }
  }

  lemma {:induction false} DropDuplicatesMembers(rows: seq<Row>)
    ensures forall x :: x in DropDuplicates(rows) <==> x in rows
  {
    if |rows| > 0 {
      var n := |rows| - 1;
      var prefix := rows[..n];
      DropDuplicatesMembers(prefix);
      assert rows == prefix + [rows[n]];
    }
  }

  lemma {:induction false} DropDuplicatesDistinct(rows: seq<Row>)
    ensures NoDuplicates(DropDuplicates(rows))
  {
    if |rows| > 0 {
      var n := |rows| - 1;
      var prefix := rows[..n];
      DropDuplicatesDistinct(prefix);
      DropDuplicatesMembers(prefix);
    }
  }

  lemma {:induction false} DropDuplicatesCount(rows: seq<Row>)
    ensures |DropDuplicates(rows)| + DuplicatedCount(rows) == |rows|
  {
    if |rows| > 0 {
      DropDuplicatesCount(rows[..|rows| - 1]);
    }
  }

  lemma DistinctPrefix(rows: seq<Row>)
    requires NoDuplicates(rows) && |rows| > 0
    ensures NoDuplicates(rows[..|rows| - 1])
    ensures rows[|rows| - 1] !in rows[..|rows| - 1]
  {
    var n := |rows| - 1;
    assert forall a :: 0 <= a < n ==> rows[..n][a] == rows[a];
  }

  /** A table without repeated rows is left as it is. */
  lemma {:induction false} DropDuplicatesOfDistinct(rows: seq<Row>)
    requires NoDuplicates(rows)
    ensures DropDuplicates(rows) == rows
  {
    if |rows| > 0 {
      var n := |rows| - 1;
      var prefix := rows[..n];
      DistinctPrefix(rows);
      DropDuplicatesOfDistinct(prefix);
      assert !Duplicated(rows, n);
      assert rows == prefix + [rows[n]];
    }
  }

  /** Removing duplicates twice removes nothing more. */
  lemma DropDuplicatesIdempotent(rows: seq<Row>)
    ensures DropDuplicates(DropDuplicates(rows)) == DropDuplicates(rows)
  {
    DropDuplicatesSpec(rows);
    DropDuplicatesOfDistinct(DropDuplicates(rows));
  }

  /** `df.duplicated()` on a frame. pandas returns before hashing when the
      frame is empty, and a frame without columns is empty however many rows
      it has; so such a frame has no flagged row. */
  predicate FlaggedRow(t: Table, i: nat)
    requires i < |t.rows|
  {
    |t.cols| > 0 && Duplicated(t.rows, i)
  }

  /** `df.duplicated().sum()` on a frame. */
  function DuplicatedRows(t: Table): (n: nat)
    ensures n <= |t.rows|
  {
    if |t.cols| == 0 then 0 else DuplicatedCount(t.rows)
  }

  /** `df.drop_duplicates()`: a frame without columns comes back as it is,
      since pandas returns a copy of an empty frame before hashing; any
      other frame keeps the first occurrence of each row. */
  function DropDuplicateRows(t: Table): (r: Table)
    ensures r.cols == t.cols
    ensures WellFormed(t) ==> WellFormed(r)
  {
    if |t.cols| == 0 then t
    else
      DropDuplicatesMembers(t.rows);
      var r := Table(t.cols, DropDuplicates(t.rows));
      assert forall i :: 0 <= i < |r.rows| ==> r.rows[i] in t.rows;
      r
  }

  /** The frame-level stage: a row is kept exactly when it is not flagged,
      in the original order; the kept count plus the flagged count is the
      original count; no row value is lost; and a frame with a column has
      no repeated rows left, while one without columns is unchanged. */
  lemma DropDuplicateRowsSpec(t: Table)
    ensures |DropDuplicateRows(t).rows| + DuplicatedRows(t) == |t.rows|
    ensures forall x :: x in DropDuplicateRows(t).rows <==> x in t.rows
    ensures |t.cols| > 0 ==> NoDuplicates(DropDuplicateRows(t).rows)
    ensures |t.cols| == 0 ==> DropDuplicateRows(t) == t
    ensures |t.cols| > 0 ==> |DropDuplicateRows(t).rows| == |FirstIndices(t.rows)|
    ensures |t.cols| > 0 ==>
              (forall k :: 0 <= k < |DropDuplicateRows(t).rows| ==>
                 FirstIndices(t.rows)[k] < |t.rows| &&
                 !FlaggedRow(t, FirstIndices(t.rows)[k]) &&
                 DropDuplicateRows(t).rows[k] == t.rows[FirstIndices(t.rows)[k]])
    ensures |t.cols| > 0 ==>
              forall i :: 0 <= i < |t.rows| && !FlaggedRow(t, i) ==> i in FirstIndices(t.rows)
  {
    if |t.cols| > 0 {
      DropDuplicatesSpec(t.rows);
      FirstIndicesSpec(t.rows);
    }
  }

  /** Dropping repeated rows loses no row value, so a column keeps a present
      cell exactly when it had one. */
  lemma DropDuplicateRowsPresence(t: Table)
    requires Rectangular(t)
    ensures Rectangular(DropDuplicateRows(t))
    ensures forall j :: 0 <= j < |t.cols| ==>
              (AllMissing(ColumnOf(DropDuplicateRows(t), j)) <==> AllMissing(ColumnOf(t, j)))
  {
    DropDuplicateRowsSpec(t);
    var r := DropDuplicateRows(t);
    assert forall i :: 0 <= i < |r.rows| ==> r.rows[i] in t.rows;
    forall j | 0 <= j < |t.cols|
      ensures AllMissing(ColumnOf(r, j)) <==> AllMissing(ColumnOf(t, j))
    {
      if !AllMissing(ColumnOf(t, j)) {
        var i :| 0 <= i < |t.rows| && t.rows[i][j].Some?;
        assert t.rows[i] in r.rows;
        var k :| 0 <= k < |r.rows| && r.rows[k] == t.rows[i];
        assert ColumnOf(r, j)[k].Some?;
      }
      if !AllMissing(ColumnOf(r, j)) {
        var k :| 0 <= k < |r.rows| && r.rows[k][j].Some?;
        var i :| 0 <= i < |t.rows| && t.rows[i] == r.rows[k];
        assert ColumnOf(t, j)[i].Some?;
      }
    }
  }
}

=== FILE: fill.dfy ===
/** Gap filling: `df.ffill()` followed by `df.bfill()`, column by column. */
module Fill {
  import opened Frame

  /** Forward fill: a missing cell takes the filled value just above it. */
  function FFill(c: seq<Cell>): (r: seq<Cell>)
    ensures |r| == |c|
  {
    if |c| == 0 then []
    else
      var p := FFill(c[..|c| - 1]);
      var last := c[|c| - 1];
      p + [if last.Some? then last else if |p| > 0 then p[|p| - 1] else None]
  }

  /** Back fill: a missing cell takes the filled value just below it. */
  function BFill(c: seq<Cell>): (r: seq<Cell>)
    ensures |r| == |c|
  {
    if |c| == 0 then []
    else
      var rest := BFill(c[1..]);
      [if c[0].Some? then c[0] else if |rest| > 0 then rest[0] else None] + rest
  }

  /** What one column becomes under `ffill()` then `bfill()`. */
  function FillColumn(c: seq<Cell>): (r: seq<Cell>)
    ensures |r| == |c|
    ensures forall i :: 0 <= i < |c| ==> r[i] == Nearest(c, i)
  {
    FillColumnIsNearest(c);
    BFill(FFill(c))
  }

  // Reference definitions, independent of the two scans.

  /** The nearest present cell at or above row `i`, if any. */
  function Prev(c: seq<Cell>, i: nat): Cell
    requires i < |c|
  {
    if c[i].Some? then c[i] else if i == 0 then None else Prev(c, i - 1)
  }

  /** The nearest present cell at or below row `i`, if any. */
  function Next(c: seq<Cell>, i: nat): Cell
    requires i < |c|
    decreases |c| - i
  {
    if c[i].Some? then c[i] else if i == |c| - 1 then None else Next(c, i + 1)
  }

  /** The value gap filling gives row `i`: the nearest preceding present
      value, or failing that the nearest following one. */
  function Nearest(c: seq<Cell>, i: nat): Cell
    requires i < |c|
  {
    if Prev(c, i).Some? then Prev(c, i) else Next(c, i)
  }

  lemma {:induction false} PrevSpec(c: seq<Cell>, i: nat)
    requires i < |c|
    ensures Prev(c, i).Some? <==> exists k :: 0 <= k <= i && c[k].Some?
    ensures Prev(c, i).Some? ==>
              exists k :: 0 <= k <= i && c[k] == Prev(c, i) && forall m :: k < m <= i ==> c[m].None?
    decreases i
  {
    if c[i].Some? {
      assert Prev(c, i) == c[i];
    } else if i > 0 {
      PrevSpec(c, i - 1);
      assert Prev(c, i) == Prev(c, i - 1);
      if Prev(c, i).Some? {
        var k :| 0 <= k <= i - 1 && c[k] == Prev(c, i - 1) && forall m :: k < m <= i - 1 ==> c[m].None?;
        assert forall m :: k < m <= i ==> c[m].None?;
      }
    }
  }

  lemma {:induction false} NextSpec(c: seq<Cell>, i: nat)
    requires i < |c|
    ensures Next(c, i).Some? <==> exists k :: i <= k < |c| && c[k].Some?
    ensures Next(c, i).Some? ==>
              exists k :: i <= k < |c| && c[k] == Next(c, i) && forall m :: i <= m < k ==> c[m].None?
    decreases |c| - i
  {
    if c[i].Some? {
      assert Next(c, i) == c[i];
    } else if i < |c| - 1 {
      NextSpec(c, i + 1);
      assert Next(c, i) == Next(c, i + 1);
      if Next(c, i).Some? {
        var k :| i + 1 <= k < |c| && c[k] == Next(c, i + 1) && forall m :: i + 1 <= m < k ==> c[m].None?;
        assert forall m :: i <= m < k ==> c[m].None?;
      }
    }
  }

  lemma {:induction false} PrevPrefix(c: seq<Cell>, n: nat, i: nat)
    requires i < n <= |c|
    ensures Prev(c[..n], i) == Prev(c, i)
    decreases i
  {
    if c[i].None? && i > 0 {
      PrevPrefix(c, n, i - 1);
    }
  }

  lemma {:induction false} NextSuffix(c: seq<Cell>, i: nat)
    requires 1 <= i < |c|
    ensures Next(c[1..], i - 1) == Next(c, i)
    decreases |c| - i
  {
    if c[i].None? && i < |c| - 1 {
      NextSuffix(c, i + 1);
    }
  }

  lemma {:induction false} FFillIsPrev(c: seq<Cell>)
    ensures forall i :: 0 <= i < |c| ==> FFill(c)[i] == Prev(c, i)
    decreases |c|
  {
    if |c| > 0 {
      var n := |c| - 1;
      var p := c[..n];
      FFillIsPrev(p);
      forall i | 0 <= i < n ensures FFill(c)[i] == Prev(c, i) {
        PrevPrefix(c, n, i);
      }
      if n > 0 {
        PrevPrefix(c, n, n - 1);
      }
    }
  }

  lemma {:induction false} BFillIsNext(c: seq<Cell>)
    ensures forall i :: 0 <= i < |c| ==> BFill(c)[i] == Next(c, i)
    decreases |c|
  {
    if |c| > 0 {
      BFillIsNext(c[1..]);
      forall i | 1 <= i < |c| ensures BFill(c)[i] == Next(c, i) {
        NextSuffix(c, i);
      }
      if |c| > 1 {
        NextSuffix(c, 1);
      }
    }
  }

  /** Below a row with nothing present above it, forward fill changed nothing
      that back fill can see. */
  lemma {:induction false} NextAfterFFill(c: seq<Cell>, i: nat)
    requires i < |c| && Prev(c, i).None?
    requires forall k :: 0 <= k < |c| ==> FFill(c)[k] == Prev(c, k)
    ensures Next(FFill(c), i) == Next(c, i)
    decreases |c| - i
  {
    if i < |c| - 1 {
      if c[i + 1].None? {
        NextAfterFFill(c, i + 1);
      }
    }
  }

  lemma FillColumnIsNearest(c: seq<Cell>)
    ensures forall i :: 0 <= i < |c| ==> BFill(FFill(c))[i] == Nearest(c, i)
  {
    FFillIsPrev(c);
    BFillIsNext(FFill(c));
    forall i | 0 <= i < |c| ensures BFill(FFill(c))[i] == Nearest(c, i) {
      if Prev(c, i).None? {
        NextAfterFFill(c, i);
      }
    }
  }

  /** Filling never touches a present cell, and leaves a cell missing exactly
      when its whole column was missing. */
  lemma FillColumnSpec(c: seq<Cell>)
    ensures forall i :: 0 <= i < |c| && c[i].Some? ==> FillColumn(c)[i] == c[i]
    ensures forall i :: 0 <= i < |c| ==> (FillColumn(c)[i].None? <==> AllMissing(c))
    ensures forall i :: 0 <= i < |c| ==> FillColumn(c)[i].None? || FillColumn(c)[i] in c
  {
    forall i | 0 <= i < |c|
      ensures FillColumn(c)[i].None? <==> AllMissing(c)
      ensures FillColumn(c)[i].None? || FillColumn(c)[i] in c
    {
      PrevSpec(c, i);
      NextSpec(c, i);
      if !AllMissing(c) {
        var k :| 0 <= k < |c| && c[k].Some?;
        if k <= i { assert Prev(c, i).Some?; } else { assert Next(c, i).Some?; }
      }
    }
  }

  lemma FillColumnMissing(c: seq<Cell>)
    ensures CountMissing(FillColumn(c)) == if AllMissing(c) then |c| else 0
  {
    FillColumnSpec(c);
    CountMissingAll(FillColumn(c));
  }

  /** `df.ffill(); df.bfill()` on the whole table. Every present cell is kept,
      every missing cell takes its column's nearest value, and only a column
      with nothing present stays missing. */
  function FillTable(t: Table): (r: Table)
    requires Rectangular(t)
    ensures r.cols == t.cols && |r.rows| == |t.rows| && Rectangular(r)
    ensures forall i, j :: 0 <= i < |t.rows| && 0 <= j < |t.cols| ==>
              r.rows[i][j] == FillColumn(ColumnOf(t, j))[i]
    ensures WellFormed(t) ==> WellFormed(r)
  {
    var filled := seq(|t.cols|, j requires 0 <= j < |t.cols| => FillColumn(ColumnOf(t, j)));
    var r := Table(t.cols, seq(|t.rows|, i requires 0 <= i < |t.rows| =>
                                 seq(|t.cols|, j requires 0 <= j < |t.cols| => filled[j][i])));
    assert WellFormed(t) ==> Typed(r) by {
      if WellFormed(t) {
        forall i, j | 0 <= i < |t.rows| && 0 <= j < |t.cols| ensures Fits(t.cols[j].kind, r.rows[i][j]) {
          var c := ColumnOf(t, j);
          FillColumnSpec(c);
          assert r.rows[i][j] == FillColumn(c)[i];
          if r.rows[i][j].Some? {
            var k :| 0 <= k < |c| && c[k] == r.rows[i][j];
            assert Fits(t.cols[j].kind, t.rows[k][j]);
          }
        }
      }
    }
    r
  }

  /** Cell by cell: every present cell is kept, every missing cell takes its
      column's nearest value, and a cell stays missing exactly when its
      column has nothing present. */
  lemma FillTableCells(t: Table)
    requires Rectangular(t)
    ensures forall i, j :: 0 <= i < |t.rows| && 0 <= j < |t.cols| ==>
              FillTable(t).rows[i][j] == Nearest(ColumnOf(t, j), i)
    ensures forall i, j :: 0 <= i < |t.rows| && 0 <= j < |t.cols| && t.rows[i][j].Some? ==>
              FillTable(t).rows[i][j] == t.rows[i][j]
    ensures forall i, j :: 0 <= i < |t.rows| && 0 <= j < |t.cols| ==>
              (FillTable(t).rows[i][j].None? <==> AllMissing(ColumnOf(t, j)))
  {
    forall i, j | 0 <= i < |t.rows| && 0 <= j < |t.cols|
      ensures FillTable(t).rows[i][j].None? <==> AllMissing(ColumnOf(t, j))
      ensures t.rows[i][j].Some? ==> FillTable(t).rows[i][j] == t.rows[i][j]
    {
      FillColumnSpec(ColumnOf(t, j));
    }
  }

  /** Missing cells in the columns that have at least one present value:
      exactly the cells gap filling can repair. */
  function Fixable(t: Table, j: nat): nat
    requires Rectangular(t) && j <= |t.cols|
    decreases |t.cols| - j
  {
    if j == |t.cols| then 0 else Repairable(ColumnOf(t, j)) + Fixable(t, j + 1)
  }

  /** The missing cells of one column that filling can repair. */
  function Repairable(c: seq<Cell>): nat {
    if AllMissing(c) then 0 else CountMissing(c)
  }

  /** The drop in the missing count caused by filling is the number of
      missing cells in columns that were not entirely missing. */
  lemma FillTableMissing(t: Table, j: nat)
    requires Rectangular(t) && j <= |t.cols|
    ensures MissingFrom(t, j) == MissingFrom(FillTable(t), j) + Fixable(t, j)
  {
    forall k | j <= k < |t.cols| {
      FillTableColumnMissing(t, k);
    }
    MissingDrop(t, FillTable(t), j);
  }

  /** Column-wise drops add up to the drop of the total. */
  lemma {:induction false} MissingDrop(t: Table, r: Table, j: nat)
    requires Rectangular(t) && Rectangular(r) && |r.cols| == |t.cols| && j <= |t.cols|
    requires forall k :: j <= k < |t.cols| ==>
               CountMissing(ColumnOf(t, k)) == CountMissing(ColumnOf(r, k)) + Repairable(ColumnOf(t, k))
    ensures MissingFrom(t, j) == MissingFrom(r, j) + Fixable(t, j)
    decreases |t.cols| - j
  {
    if j < |t.cols| {
      var c, d := ColumnOf(t, j), ColumnOf(r, j);
      assert CountMissing(c) == CountMissing(d) + Repairable(c);
      MissingDrop(t, r, j + 1);
      assert MissingFrom(t, j) == CountMissing(c) + MissingFrom(t, j + 1);
      assert MissingFrom(r, j) == CountMissing(d) + MissingFrom(r, j + 1);
      assert Fixable(t, j) == Repairable(c) + Fixable(t, j + 1);
    }
  }

  /** One column's share of that drop. */
  lemma FillTableColumnMissing(t: Table, j: nat)
    requires Rectangular(t) && j < |t.cols|
    ensures CountMissing(ColumnOf(t, j)) == CountMissing(ColumnOf(FillTable(t), j)) + Repairable(ColumnOf(t, j))
  {
    var c := ColumnOf(t, j);
    assert ColumnOf(FillTable(t), j) == FillColumn(c);
    FillColumnMissing(c);
    if AllMissing(c) {
      CountMissingAll(c);
    }
  }

  /** Over the whole table: the drop is never negative and never more than
      the missing count before. */
  lemma FillTableFixes(t: Table)
    requires Rectangular(t)
    ensures MissingCount(t) - MissingCount(FillTable(t)) == Fixable(t, 0)
    ensures 0 <= Fixable(t, 0) <= MissingCount(t)
  {
    FillTableMissing(t, 0);
  }

  /** Filling leaves a column all missing exactly when it was all missing:
      a column with one present value has no gap left after the fill. */
  lemma FillTablePresence(t: Table)
    requires Rectangular(t)
    ensures forall j :: 0 <= j < |t.cols| ==>
              (AllMissing(ColumnOf(FillTable(t), j)) <==> AllMissing(ColumnOf(t, j)))
  {
    FillTableCells(t);
    forall j | 0 <= j < |t.cols|
      ensures AllMissing(ColumnOf(FillTable(t), j)) <==> AllMissing(ColumnOf(t, j))
    {
      if !AllMissing(ColumnOf(t, j)) {
        var i :| 0 <= i < |t.rows| && t.rows[i][j].Some?;
        assert ColumnOf(FillTable(t), j)[i].Some?;
      }
    }
  }
}

=== FILE: frame.dfy ===
/** The in-memory table both pipeline classes operate on: an ordered list of
    named, dtype-tagged columns and a sequence of rows of optional cells.
    A missing cell (pandas NaN / NaT / None) is `None`. */
module Frame {

  datatype Option<+T> = None | Some(value: T)

  /** A cell value. Numbers are reals (no IEEE rounding); timestamps are
      nanoseconds since 1970-01-01, as pandas' datetime64[ns] stores them. */
  datatype Value = Num(x: real) | Str(s: string) | Time(ns: int)

  type Cell = Option<Value>

  /** The dtype class of a column: `Numeric` is what `select_dtypes(np.number)` selects. */
  datatype Kind = Numeric | Text | DateTime

  datatype Column = Column(name: string, kind: Kind)

  datatype Table = Table(cols: seq<Column>, rows: seq<seq<Cell>>)

  /** The exceptions a stage lets propagate to its caller. */
  datatype Error =
    | KeyError(column: string)        // a named column is absent
    | TypeError(column: string)       // a comparison or statistic on the wrong dtype
    | AttributeError(column: string)  // `.dt` on a column that is not datetime-like

  datatype Result<+T> = Ok(value: T) | Err(error: Error)

  predicate Rectangular(t: Table) {
    forall i :: 0 <= i < |t.rows| ==> |t.rows[i]| == |t.cols|
  }

  predicate DistinctNames(t: Table) {
    forall a, b :: 0 <= a < b < |t.cols| ==> t.cols[a].name != t.cols[b].name
  }

  /** A present cell carries the value class of its column's dtype. */
  predicate Fits(k: Kind, c: Cell) {
    match c
    case None => true
    case Some(v) =>
      match k
      case Numeric => v.Num?
      case Text => v.Str?
      case DateTime => v.Time?
  }

  predicate Typed(t: Table)
    requires Rectangular(t)
  {
    forall i, j :: 0 <= i < |t.rows| && 0 <= j < |t.cols| ==> Fits(t.cols[j].kind, t.rows[i][j])
  }

  /** What every pandas DataFrame in this pipeline satisfies. */
  predicate WellFormed(t: Table) {
    Rectangular(t) && DistinctNames(t) && Typed(t)
  }

  predicate HasColumn(t: Table, name: string) {
    exists j :: 0 <= j < |t.cols| && t.cols[j].name == name
  }

  /** Position of the first column called `name`, as label lookup `df[name]` finds it. */
  function IndexOf(t: Table, name: string): (r: Option<nat>)
    ensures r.None? <==> !HasColumn(t, name)
    ensures r.Some? ==> r.value < |t.cols| && t.cols[r.value].name == name
    ensures r.Some? ==> forall k :: 0 <= k < r.value ==> t.cols[k].name != name
  {
    IndexFrom(t.cols, name, 0)
  }

  function IndexFrom(cols: seq<Column>, name: string, from: nat): (r: Option<nat>)
    requires from <= |cols|
    ensures r.None? <==> forall j :: from <= j < |cols| ==> cols[j].name != name
    ensures r.Some? ==> from <= r.value < |cols| && cols[r.value].name == name
    ensures r.Some? ==> forall k :: from <= k < r.value ==> cols[k].name != name
    decreases |cols| - from
  {
    if from == |cols| then None
    else if cols[from].name == name then Some(from)
    else IndexFrom(cols, name, from + 1)
  }

  /** Column `j` read top to bottom. */
  function ColumnOf(t: Table, j: nat): (c: seq<Cell>)
    requires Rectangular(t) && j < |t.cols|
    ensures |c| == |t.rows|
    ensures forall i :: 0 <= i < |t.rows| ==> c[i] == t.rows[i][j]
  {
    seq(|t.rows|, i requires 0 <= i < |t.rows| => t.rows[i][j])
  }

  function CountMissing(c: seq<Cell>): (n: nat)
    ensures n <= |c|
  {
    if |c| == 0 then 0 else (if c[0].None? then 1 else 0) + CountMissing(c[1..])
  }

  predicate AllMissing(c: seq<Cell>) {
    forall i :: 0 <= i < |c| ==> c[i].None?
  }

  /** No cell is missing exactly when the count is zero, and every cell is
      missing exactly when the count is the length. */
  lemma {:induction false} CountMissingAll(c: seq<Cell>)
    ensures CountMissing(c) == 0 <==> forall i :: 0 <= i < |c| ==> c[i].Some?
    ensures CountMissing(c) == |c| <==> AllMissing(c)
  {
    if |c| > 0 {
      CountMissingAll(c[1..]);
      assert forall i :: 1 <= i < |c| ==> c[i] == c[1..][i - 1];
    }
  }

  /** `df.isnull().sum().sum()`: missing cells counted per column, then summed. */
  function MissingCount(t: Table): nat
    requires Rectangular(t)
  {
    MissingFrom(t, 0)
  }

  function MissingFrom(t: Table, j: nat): nat
    requires Rectangular(t) && j <= |t.cols|
    decreases |t.cols| - j
  {
    if j == |t.cols| then 0 else CountMissing(ColumnOf(t, j)) + MissingFrom(t, j + 1)
  }

  /** `isnull().sum().sum()` is zero exactly when every cell is present. */
  lemma MissingCountZero(t: Table)
    requires Rectangular(t)
    ensures MissingCount(t) == 0 <==>
              forall i, j :: 0 <= i < |t.rows| && 0 <= j < |t.cols| ==> t.rows[i][j].Some?
  {
    MissingFromZero(t, 0);
  }

  lemma {:induction false} MissingFromZero(t: Table, j: nat)
    requires Rectangular(t) && j <= |t.cols|
    ensures MissingFrom(t, j) == 0 <==>
              forall i, k :: 0 <= i < |t.rows| && j <= k < |t.cols| ==> t.rows[i][k].Some?
    decreases |t.cols| - j
  {
    if j < |t.cols| {
      MissingFromZero(t, j + 1);
      CountMissingAll(ColumnOf(t, j));
      if MissingFrom(t, j) == 0 {
        forall i, k | 0 <= i < |t.rows| && j <= k < |t.cols| ensures t.rows[i][k].Some? {
          if k == j { assert ColumnOf(t, j)[i] == t.rows[i][j]; }
        }
      } else if CountMissing(ColumnOf(t, j)) > 0 {
        var i :| 0 <= i < |t.rows| && !ColumnOf(t, j)[i].Some?;
        assert t.rows[i][j].None?;
      }
    }
  }

  /** The present numbers of a column, in row order (what a skipna statistic sees). */
  function Numbers(c: seq<Cell>): (xs: seq<real>)
    ensures |xs| <= |c|
  {
    if |c| == 0 then []
    else
      var rest := Numbers(c[1..]);
      if c[0].Some? && c[0].value.Num? then [c[0].value.x] + rest else rest
  }

  /** The numbers are exactly the values of the present numeric cells. */
  lemma {:induction false} NumbersMembers(c: seq<Cell>)
    ensures forall x :: x in Numbers(c) <==> Some(Num(x)) in c
  {
    if |c| > 0 {
      NumbersMembers(c[1..]);
      assert forall y :: y in c <==> y == c[0] || y in c[1..];
    }
  }

  /** `max()` with skipna: `None` stands for the NaN an empty selection yields. */
  function Max(xs: seq<real>): (m: Option<real>)
    ensures m.None? <==> |xs| == 0
    ensures m.Some? ==> m.value in xs && forall k :: 0 <= k < |xs| ==> xs[k] <= m.value
  {
    if |xs| == 0 then None
    else
      var rest := Max(xs[1..]);
      if rest.None? || xs[0] >= rest.value then Some(xs[0]) else rest
  }

  function Min(xs: seq<real>): (m: Option<real>)
    ensures m.None? <==> |xs| == 0
    ensures m.Some? ==> m.value in xs && forall k :: 0 <= k < |xs| ==> m.value <= xs[k]
  {
    if |xs| == 0 then None
    else
      var rest := Min(xs[1..]);
      if rest.None? || xs[0] <= rest.value then Some(xs[0]) else rest
  }

  /** The table with column `j` replaced by `c`, dtype and label kept. */
  function WithColumn(t: Table, j: nat, c: seq<Cell>): (r: Table)
    requires Rectangular(t) && j < |t.cols| && |c| == |t.rows|
    ensures r.cols == t.cols && |r.rows| == |t.rows| && Rectangular(r)
    ensures forall i, k :: 0 <= i < |t.rows| && 0 <= k < |t.cols| ==>
              r.rows[i][k] == if k == j then c[i] else t.rows[i][k]
  {
    Table(t.cols, seq(|t.rows|, i requires 0 <= i < |t.rows| => t.rows[i][j := c[i]]))
  }

  /** The labels of the numeric columns, in column order. */
  function NumericNames(t: Table): (ns: seq<string>)
    ensures forall n :: n in ns <==> exists j :: 0 <= j < |t.cols| && t.cols[j] == Column(n, Numeric)
  {
    NumericFrom(t.cols)
  }

  function NumericFrom(cols: seq<Column>): (ns: seq<string>)
    ensures |ns| <= |cols|
    ensures forall n :: n in ns <==> exists j :: 0 <= j < |cols| && cols[j] == Column(n, Numeric)
    ensures forall a :: 0 <= a < |ns| ==> exists j :: 0 <= j < |cols| && cols[j] == Column(ns[a], Numeric)
  {
    if |cols| == 0 then []
    else
      var rest := NumericFrom(cols[1..]);
      assert forall n :: (exists j :: 0 <= j < |cols| && cols[j] == Column(n, Numeric)) <==>
                         cols[0] == Column(n, Numeric) || exists j :: 0 <= j < |cols[1..]| && cols[1..][j] == Column(n, Numeric) by {
        forall n | exists j :: 0 <= j < |cols| && cols[j] == Column(n, Numeric)
          ensures cols[0] == Column(n, Numeric) || exists j :: 0 <= j < |cols[1..]| && cols[1..][j] == Column(n, Numeric)
        {
          var j :| 0 <= j < |cols| && cols[j] == Column(n, Numeric);
          if j > 0 { assert cols[1..][j - 1] == Column(n, Numeric); }
        }
      }
      if cols[0].kind == Numeric then [cols[0].name] + rest else rest
  }

  predicate Distinct(ns: seq<string>) {
    forall a, b :: 0 <= a < b < |ns| ==> ns[a] != ns[b]
  }

  lemma {:induction false} NumericFromDistinct(cols: seq<Column>)
    requires forall a, b :: 0 <= a < b < |cols| ==> cols[a].name != cols[b].name
    ensures Distinct(NumericFrom(cols))
  {
    if |cols| > 0 {
      NumericFromDistinct(cols[1..]);
      var rest := NumericFrom(cols[1..]);
      if cols[0].kind == Numeric {
        forall a | 0 <= a < |rest| ensures rest[a] != cols[0].name {
          var j :| 0 <= j < |cols[1..]| && cols[1..][j] == Column(rest[a], Numeric);
          assert cols[j + 1].name == rest[a];
        }
      }
    }
  }

  /** `df[name] = values`: overwrite the column in place when the label
      exists (its dtype becomes `kind`), otherwise append it at the end. */
  function SetColumn(t: Table, name: string, kind: Kind, values: seq<Cell>): (r: Table)
    requires Rectangular(t) && DistinctNames(t) && |values| == |t.rows|
    ensures Rectangular(r) && DistinctNames(r) && |r.rows| == |t.rows|
    ensures HasColumn(t, name) ==> |r.cols| == |t.cols|
    ensures !HasColumn(t, name) ==> |r.cols| == |t.cols| + 1 && r.cols[|t.cols|] == Column(name, kind)
  {
    match IndexOf(t, name)
    case Some(j) =>
      var cols := t.cols[j := Column(name, kind)];
      var rows := seq(|t.rows|, i requires 0 <= i < |t.rows| => t.rows[i][j := values[i]]);
      assert forall k :: 0 <= k < |t.cols| ==> cols[k].name == t.cols[k].name;
      Table(cols, rows)
    case None =>
      var cols := t.cols + [Column(name, kind)];
      var rows := seq(|t.rows|, i requires 0 <= i < |t.rows| => t.rows[i] + [values[i]]);
      Table(cols, rows)
  }

  /** The labels after the assignment are the old ones plus the assigned one. */
  lemma SetColumnLabels(t: Table, name: string, kind: Kind, values: seq<Cell>)
    requires Rectangular(t) && DistinctNames(t) && |values| == |t.rows|
    ensures forall n :: HasColumn(SetColumn(t, name, kind, values), n) <==> HasColumn(t, n) || n == name
  {
    var r := SetColumn(t, name, kind, values);
    forall n ensures HasColumn(r, n) <==> HasColumn(t, n) || n == name {
      if HasColumn(r, n) {
        var k :| 0 <= k < |r.cols| && r.cols[k].name == n;
        if k < |t.cols| && t.cols[k].name != name { assert t.cols[k].name == n; }
      }
      if HasColumn(t, n) {
        var k :| 0 <= k < |t.cols| && t.cols[k].name == n;
        assert r.cols[k].name == n;
      }
      if n == name {
        if !HasColumn(t, name) { assert r.cols[|t.cols|].name == name; }
      }
    }
  }
}

=== FILE: normalizer.dfy ===
/** The `DataNormalizer` class: pick the numeric columns worth scaling, fit
    one scaler per picked column, replace the column by its scaled values,
    and record the fitted scalers and before/after ranges. The scaler's fit
    is a parameter returning a centre and a scale; the transform is the
    affine map both sklearn scalers apply. */
module Normalizer {
  import opened Frame
  import opened Strings

  datatype ScalerKind = Standard | Robust

  /** `get_scaler`: only the exact string "robust" picks the robust scaler. */
  function GetScaler(scalerType: string): (k: ScalerKind)
    ensures k == Robust <==> scalerType == "robust"
    ensures k == Standard <==> scalerType != "robust"
  {
    if scalerType == "robust" then Robust else Standard
  }

  /** A fitted scaler: `x` becomes `(x - center) / scale`. */
  datatype Scaler = Scaler(kind: ScalerKind, center: real, scale: real)

  /** One value of the `report` dictionary: the selected labels under
      `columns_to_normalize`, or the statistics of one scaled column. A NaN
      statistic is `None`. */
  datatype Entry =
    | ColumnList(names: seq<string>)
    | Stats(scaler: string, minBefore: Option<real>, maxBefore: Option<real>,
            minAfter: Option<real>, maxAfter: Option<real>)

  /** `verbose` only switches logging, which is not modelled. */
  datatype Normalizer = Normalizer(df: Table, scalerType: string, exclude: seq<string>,
                                   scalers: map<string, Scaler>, report: map<string, Entry>)

  const ListKey: string := "columns_to_normalize"
  const SkipKeywords: seq<string> := ["percent", "ratio", "rate", "return"]

  /** `exclude_columns if exclude_columns else []`: both a missing and an
      empty list leave nothing excluded. */
  function NewNormalizer(t: Table, scalerType: string, excludeColumns: Option<seq<string>>): (n: Normalizer)
    ensures n.df == t && n.scalerType == scalerType && n.scalers == map[] && n.report == map[]
    ensures excludeColumns.None? ==> n.exclude == []
    ensures excludeColumns.Some? ==> n.exclude == excludeColumns.value
  {
    Normalizer(t, scalerType, if excludeColumns.Some? then excludeColumns.value else [], map[], map[])
  }

  // ---------------------------------------------------------------------
  // detect_columns_to_scale

  /** `any(kw in col.lower() for kw in skip_keywords)`. */
  predicate HasSkipKeyword(name: string) {
    exists k :: 0 <= k < |SkipKeywords| && Contains(Lower(name), SkipKeywords[k])
  }

  /** The distinct present values of a column; `nunique()` is its size. */
  function PresentValues(c: seq<Cell>): set<Value> {
    set i | 0 <= i < |c| && c[i].Some? :: c[i].value
  }

  function NUnique(c: seq<Cell>): (n: nat)
    ensures n <= |c|
  {
    PresentValuesBound(c);
    |PresentValues(c)|
  }

  lemma {:induction false} PresentValuesBound(c: seq<Cell>)
    ensures |PresentValues(c)| <= |c|
  {
    if |c| > 0 {
      var rest := c[1..];
      PresentValuesBound(rest);
      var s := PresentValues(rest);
      if c[0].Some? {
        assert PresentValues(c) <= s + {c[0].value} by {
          forall v | v in PresentValues(c) ensures v in s + {c[0].value} {
            var i :| 0 <= i < |c| && c[i].Some? && c[i].value == v;
            if i > 0 { assert rest[i - 1] == c[i]; }
          }
        }
        assert |s + {c[0].value}| <= |s| + 1;
        SubsetSize(PresentValues(c), s + {c[0].value});
      } else {
        assert PresentValues(c) <= s by {
          forall v | v in PresentValues(c) ensures v in s {
            var i :| 0 <= i < |c| && c[i].Some? && c[i].value == v;
            assert i > 0 && rest[i - 1] == c[i];
          }
        }
        SubsetSize(PresentValues(c), s);
      }
    }
  }

  lemma SubsetSize<T>(a: set<T>, b: set<T>)
    requires a <= b
    ensures |a| <= |b|
  {
    assert b == a + (b - a);
  }

  /** The loop body's three `continue` tests, passed. */
  predicate Keep(t: Table, exclude: seq<string>, name: string)
    requires Rectangular(t)
  {
    name !in exclude && !HasSkipKeyword(name) &&
    match IndexOf(t, name)
    case Some(j) => NUnique(ColumnOf(t, j)) > 2
    case None => false
  }

  /** The filter over the numeric labels, in their order. */
  function Select(t: Table, exclude: seq<string>, names: seq<string>): (r: seq<string>)
    requires Rectangular(t)
    ensures |r| <= |names|
    ensures forall n :: n in r <==> n in names && Keep(t, exclude, n)
  {
    if |names| == 0 then []
    else
      var rest := Select(t, exclude, names[1..]);
      assert forall n :: n in names <==> n == names[0] || n in names[1..];
      if Keep(t, exclude, names[0]) then [names[0]] + rest else rest
  }

  /** `xs` is `ys` with some elements left out. */
  predicate Subsequence(xs: seq<string>, ys: seq<string>)
    decreases |ys|
  {
    if |xs| == 0 then true
    else if |ys| == 0 then false
    else if xs[0] == ys[0] then Subsequence(xs[1..], ys[1..])
    else Subsequence(xs, ys[1..])
  }

  lemma {:induction false} SelectOrder(t: Table, exclude: seq<string>, names: seq<string>)
    requires Rectangular(t)
    ensures Subsequence(Select(t, exclude, names), names)
  {
    if |names| > 0 {
      SelectOrder(t, exclude, names[1..]);
      var rest := Select(t, exclude, names[1..]);
      if |rest| > 0 {
        assert rest[0] in rest;
      }
    }
  }

  lemma {:induction false} SelectDistinct(t: Table, exclude: seq<string>, names: seq<string>)
    requires Rectangular(t) && Distinct(names)
    ensures Distinct(Select(t, exclude, names))
  {
    if |names| > 0 {
      SelectDistinct(t, exclude, names[1..]);
      assert names[0] !in names[1..];
    }
  }

  /** `detect_columns_to_scale()`: the list is stored under
      `columns_to_normalize` and returned; nothing else changes. */
  function DetectColumnsToScale(n: Normalizer): (r: (Normalizer, seq<string>))
    requires Rectangular(n.df)
    ensures r.0 == n.(report := n.report[ListKey := ColumnList(r.1)])
    ensures forall name :: name in r.1 <==>
              (exists j :: 0 <= j < |n.df.cols| && n.df.cols[j] == Column(name, Numeric)) && Keep(n.df, n.exclude, name)
  {
    var cols := Select(n.df, n.exclude, NumericNames(n.df));
    (n.(report := n.report[ListKey := ColumnList(cols)]), cols)
  }

  /** The selection keeps the numeric columns' order and never repeats a label. */
  lemma DetectColumnsOrder(n: Normalizer)
    requires Rectangular(n.df) && DistinctNames(n.df)
    ensures Subsequence(DetectColumnsToScale(n).1, NumericNames(n.df))
    ensures Distinct(DetectColumnsToScale(n).1)
  {
    SelectOrder(n.df, n.exclude, NumericNames(n.df));
    NumericFromDistinct(n.df.cols);
    SelectDistinct(n.df, n.exclude, NumericNames(n.df));
  }

  /** Each selected label names a numeric column that is not excluded, whose
      lower-cased label has none of the skip keywords, and which holds more
      than two distinct values. */
  lemma DetectColumnsCriteria(n: Normalizer, name: string)
    requires Rectangular(n.df) && DistinctNames(n.df) && name in DetectColumnsToScale(n).1
    ensures HasColumn(n.df, name) && n.df.cols[IndexOf(n.df, name).value].kind == Numeric
    ensures name !in n.exclude
    ensures forall k :: 0 <= k < |SkipKeywords| ==> !Contains(Lower(name), SkipKeywords[k])
    ensures NUnique(ColumnOf(n.df, IndexOf(n.df, name).value)) > 2
  {
    var j :| 0 <= j < |n.df.cols| && n.df.cols[j] == Column(name, Numeric);
    assert IndexOf(n.df, name).value == j;
  }

  /** Without an exclusion list, or with an empty one, a column is dropped
      only for a keyword or for too few distinct values. */
  lemma NoExclusionList(t: Table, scalerType: string, name: string)
    requires Rectangular(t)
    ensures DetectColumnsToScale(NewNormalizer(t, scalerType, None)) ==
            DetectColumnsToScale(NewNormalizer(t, scalerType, Some([])))
    ensures name in DetectColumnsToScale(NewNormalizer(t, scalerType, None)).1 <==>
              (exists j :: 0 <= j < |t.cols| && t.cols[j] == Column(name, Numeric)) && !HasSkipKeyword(name) &&
              NUnique(ColumnOf(t, IndexOf(t, name).value)) > 2
  {
  }

  // ---------------------------------------------------------------------
  // normalize

  /** A zero scale (a constant column) is replaced by one, as sklearn does. */
  function Divisor(s: real): (d: real)
    ensures d != 0.0
  {
    if s == 0.0 then 1.0 else s
  }

  /** `transform` on one cell; NaN stays NaN. */
  function Apply(sc: Scaler, cell: Cell): (r: Cell)
    ensures r.None? <==> cell.None?
  {
    match cell
    case Some(Num(x)) => Some(Num(Affine(x, sc.center, Divisor(sc.scale))))
    case _ => cell
  }

  function ApplyColumn(sc: Scaler, c: seq<Cell>): (r: seq<Cell>)
    ensures |r| == |c| && forall i :: 0 <= i < |c| ==> r[i] == Apply(sc, c[i])
  {
    seq(|c|, i requires 0 <= i < |c| => Apply(sc, c[i]))
  }

  /** A fresh scaler of the configured kind fitted to the column's present
      numbers. */
  function FitColumn(kind: ScalerKind, fit: (ScalerKind, seq<real>) -> (real, real), c: seq<Cell>): Scaler {
    var p := fit(kind, Numbers(c));
    Scaler(kind, p.0, p.1)
  }

  /** `np.min` and `np.max` of the raw column: a NaN anywhere makes them NaN. */
  function RawMin(c: seq<Cell>): Option<real> {
    if CountMissing(c) == 0 then Min(Numbers(c)) else None
  }

  function RawMax(c: seq<Cell>): Option<real> {
    if CountMissing(c) == 0 then Max(Numbers(c)) else None
  }

  /** The report entry of one scaled column: raw range before, NaN-skipping
      range after. */
  function StatsOf(scalerType: string, before: seq<Cell>, after: seq<Cell>): Entry {
    Stats(scalerType, RawMin(before), RawMax(before), Min(Numbers(after)), Max(Numbers(after)))
  }

  /** The scaler `normalize()` fits for column `j`. */
  function ColumnScaler(n: Normalizer, fit: (ScalerKind, seq<real>) -> (real, real), j: nat): Scaler
    requires Rectangular(n.df) && j < |n.df.cols|
  {
    FitColumn(GetScaler(n.scalerType), fit, ColumnOf(n.df, j))
  }

  /** The labels `normalize()` scales. */
  function Selected(n: Normalizer): seq<string>
    requires Rectangular(n.df)
  {
    DetectColumnsToScale(n).1
  }

  /** `normalize()`: select, then for each selected column fit a scaler,
      replace the column by its transform, and record the scaler and the
      column's statistics. The labels are distinct, so each column is
      handled once and independently of the others. */
  function Normalize(n: Normalizer, fit: (ScalerKind, seq<real>) -> (real, real)): (r: Normalizer)
    requires Rectangular(n.df) && DistinctNames(n.df)
    ensures r.scalerType == n.scalerType && r.exclude == n.exclude
    ensures r.df.cols == n.df.cols && |r.df.rows| == |n.df.rows| && Rectangular(r.df)
  {
    var cols := Selected(n);
    assert forall c :: c in cols ==> HasColumn(n.df, c);
    Normalizer(ScaledTable(n, fit, cols), n.scalerType, n.exclude,
               FittedScalers(n, fit, cols), ScaledReport(n, fit, cols))
  }

  /** The frame with every selected column replaced by its transform. */
  function ScaledTable(n: Normalizer, fit: (ScalerKind, seq<real>) -> (real, real), cols: seq<string>): (r: Table)
    requires Rectangular(n.df)
    ensures r.cols == n.df.cols && |r.rows| == |n.df.rows| && Rectangular(r)
  {
    var t := n.df;
    Table(t.cols, seq(|t.rows|, i requires 0 <= i < |t.rows| =>
                    seq(|t.cols|, j requires 0 <= j < |t.cols| =>
                      if t.cols[j].name in cols then Apply(ColumnScaler(n, fit, j), t.rows[i][j]) else t.rows[i][j])))
  }

  /** `scalers[col] = scaler` for each selected label. */
  function FittedScalers(n: Normalizer, fit: (ScalerKind, seq<real>) -> (real, real), cols: seq<string>): (r: map<string, Scaler>)
    requires Rectangular(n.df) && forall c :: c in cols ==> HasColumn(n.df, c)
    ensures r.Keys == n.scalers.Keys + set c | c in cols
    ensures forall k :: k in n.scalers && k !in cols ==> r[k] == n.scalers[k]
  {
    map k | k in n.scalers.Keys + (set c | c in cols) ::
      if k in cols then ColumnScaler(n, fit, IndexOf(n.df, k).value) else n.scalers[k]
  }

  /** `report['columns_to_normalize'] = cols`, then `report[col] = {...}`
      for each selected label; a column with the list's own label therefore
      overwrites the list. */
  function ScaledReport(n: Normalizer, fit: (ScalerKind, seq<real>) -> (real, real), cols: seq<string>): (r: map<string, Entry>)
    requires Rectangular(n.df) && forall c :: c in cols ==> HasColumn(n.df, c)
    ensures r.Keys == n.report.Keys + {ListKey} + set c | c in cols
    ensures forall k :: k in n.report && k != ListKey && k !in cols ==> r[k] == n.report[k]
  {
    map k | k in n.report.Keys + {ListKey} + (set c | c in cols) ::
      if k in cols then ScaledStats(n, fit, IndexOf(n.df, k).value)
      else if k == ListKey then ColumnList(cols)
      else n.report[k]
  }

  /** `report[col]` for the column at position `j`. */
  function ScaledStats(n: Normalizer, fit: (ScalerKind, seq<real>) -> (real, real), j: nat): Entry
    requires Rectangular(n.df) && j < |n.df.cols|
  {
    var c := ColumnOf(n.df, j);
    StatsOf(n.scalerType, c, ApplyColumn(ColumnScaler(n, fit, j), c))
  }

  /** The position of a selected label. */
  function PositionOf(n: Normalizer, name: string): (j: nat)
    requires Rectangular(n.df) && name in Selected(n)
    ensures j < |n.df.cols| && n.df.cols[j].name == name
  {
    IndexOf(n.df, name).value
  }

  /** `scalers` gains exactly one entry per selected label, a scaler of the
      configured kind fitted to that column; entries already there for
      other labels stay. */
  lemma NormalizeScalers(n: Normalizer, fit: (ScalerKind, seq<real>) -> (real, real))
    requires Rectangular(n.df) && DistinctNames(n.df)
    ensures Normalize(n, fit).scalers.Keys == n.scalers.Keys + set c | c in Selected(n)
    ensures forall c :: c in Selected(n) ==>
              Normalize(n, fit).scalers[c] == FitColumn(GetScaler(n.scalerType), fit, ColumnOf(n.df, PositionOf(n, c)))
    ensures forall c :: c in Selected(n) ==> Normalize(n, fit).scalers[c].kind == GetScaler(n.scalerType)
    ensures forall c :: c in n.scalers && c !in Selected(n) ==> Normalize(n, fit).scalers[c] == n.scalers[c]
  {
  }

  /** The cells of a selected column are transformed by its scaler; every
      other column is left exactly as it was. */
  lemma NormalizeCells(n: Normalizer, fit: (ScalerKind, seq<real>) -> (real, real), j: nat)
    requires Rectangular(n.df) && DistinctNames(n.df) && j < |n.df.cols|
    ensures n.df.cols[j].name !in Selected(n) ==> ColumnOf(Normalize(n, fit).df, j) == ColumnOf(n.df, j)
    ensures n.df.cols[j].name in Selected(n) ==>
              ColumnOf(Normalize(n, fit).df, j) == ApplyColumn(Normalize(n, fit).scalers[n.df.cols[j].name], ColumnOf(n.df, j))
  {
    var name := n.df.cols[j].name;
    if name in Selected(n) {
      NormalizeScalers(n, fit);
      assert PositionOf(n, name) == j;
    }
  }

  /** The report gains `columns_to_normalize` and one entry per selected
      label; entries for other labels stay. */
  lemma NormalizeReportKeys(n: Normalizer, fit: (ScalerKind, seq<real>) -> (real, real))
    requires Rectangular(n.df) && DistinctNames(n.df)
    ensures Normalize(n, fit).report.Keys == n.report.Keys + {ListKey} + set c | c in Selected(n)
    ensures forall c :: c in n.report && c != ListKey && c !in Selected(n) ==> Normalize(n, fit).report[c] == n.report[c]
  {
    assert Normalize(n, fit).report == ScaledReport(n, fit, Selected(n));
  }

  /** The entry of a selected column names the configured scaler and
      records the raw range before scaling and the NaN-skipping range of
      the scaled column. */
  lemma NormalizeEntry(n: Normalizer, fit: (ScalerKind, seq<real>) -> (real, real), c: string)
    requires Rectangular(n.df) && DistinctNames(n.df) && c in Selected(n)
    ensures var before := ColumnOf(n.df, PositionOf(n, c));
            var after := ColumnOf(Normalize(n, fit).df, PositionOf(n, c));
            Normalize(n, fit).report[c] ==
              Stats(n.scalerType, RawMin(before), RawMax(before), Min(Numbers(after)), Max(Numbers(after)))
  {
    var j := PositionOf(n, c);
    NormalizeCells(n, fit, j);
    NormalizeScalers(n, fit);
    assert ColumnOf(Normalize(n, fit).df, j) == ApplyColumn(ColumnScaler(n, fit, j), ColumnOf(n.df, j));
  }

  /** `report['columns_to_normalize']` is the returned list unless a selected
      column carries that very label, whose statistics then replace it. */
  lemma NormalizeListEntry(n: Normalizer, fit: (ScalerKind, seq<real>) -> (real, real))
    requires Rectangular(n.df) && DistinctNames(n.df)
    ensures Normalize(n, fit).report[ListKey] == ColumnList(Selected(n)) <==> ListKey !in Selected(n)
  {
  }

  // ---------------------------------------------------------------------
  // The recorded ranges

  function Affine(x: real, center: real, d: real): real
    requires d != 0.0
  {
    (x - center) / d
  }

  function AffineAll(xs: seq<real>, center: real, d: real): (r: seq<real>)
    requires d != 0.0
    ensures |r| == |xs| && forall k :: 0 <= k < |xs| ==> r[k] == Affine(xs[k], center, d)
  {
    seq(|xs|, k requires 0 <= k < |xs| => Affine(xs[k], center, d))
  }

  lemma {:induction false} NumbersApplied(sc: Scaler, c: seq<Cell>)
    ensures Numbers(ApplyColumn(sc, c)) == AffineAll(Numbers(c), sc.center, Divisor(sc.scale))
  {
    if |c| > 0 {
      var r := ApplyColumn(sc, c);
      var d := Divisor(sc.scale);
      NumbersApplied(sc, c[1..]);
      assert r[1..] == ApplyColumn(sc, c[1..]);
      var xs := Numbers(c);
      var rest := Numbers(c[1..]);
      if c[0].Some? && c[0].value.Num? {
        assert xs == [c[0].value.x] + rest;
        assert AffineAll(xs, sc.center, d) == [Affine(c[0].value.x, sc.center, d)] + AffineAll(rest, sc.center, d);
      } else {
        assert xs == rest;
      }
    }
  }

  lemma AffineMono(a: real, b: real, center: real, d: real)
    requires d > 0.0 && a <= b
    ensures Affine(a, center, d) <= Affine(b, center, d)
  {
    var x, y := Affine(a, center, d), Affine(b, center, d);
    assert x * d == a - center && y * d == b - center;
    assert (y - x) * d == b - a;
  }

  lemma AffineStrict(a: real, b: real, center: real, d: real)
    requires d > 0.0 && a < b
    ensures Affine(a, center, d) < Affine(b, center, d)
  {
    var x, y := Affine(a, center, d), Affine(b, center, d);
    assert x * d == a - center && y * d == b - center;
    assert (y - x) * d == b - a;
  }

  /** An increasing affine map sends the minimum to the minimum and the
      maximum to the maximum. */
  lemma {:induction false} AffineRange(xs: seq<real>, center: real, d: real)
    requires d > 0.0 && |xs| > 0
    ensures Min(AffineAll(xs, center, d)) == Some(Affine(Min(xs).value, center, d))
    ensures Max(AffineAll(xs, center, d)) == Some(Affine(Max(xs).value, center, d))
  {
    var ys := AffineAll(xs, center, d);
    if |xs| > 1 {
      AffineRange(xs[1..], center, d);
      assert ys[1..] == AffineAll(xs[1..], center, d);
      var lo := Min(xs[1..]).value;
      var hi := Max(xs[1..]).value;
      if xs[0] <= lo { AffineMono(xs[0], lo, center, d); } else { AffineStrict(lo, xs[0], center, d); }
      if xs[0] >= hi { AffineMono(hi, xs[0], center, d); } else { AffineStrict(xs[0], hi, center, d); }
    }
  }

  /** For a scaled column with no missing value and a non-negative fitted
      scale (what both sklearn scalers produce), the recorded range after
      scaling is the recorded range before, pushed through the transform. */
  lemma NormalizeRange(n: Normalizer, fit: (ScalerKind, seq<real>) -> (real, real), c: string)
    requires WellFormed(n.df) && c in Selected(n)
    requires CountMissing(ColumnOf(n.df, PositionOf(n, c))) == 0
    requires ColumnScaler(n, fit, PositionOf(n, c)).scale >= 0.0
    ensures Normalize(n, fit).report[c].minBefore.Some? && Normalize(n, fit).report[c].maxBefore.Some?
    ensures var e := Normalize(n, fit).report[c];
            var sc := Normalize(n, fit).scalers[c];
            e.minAfter == Some(Affine(e.minBefore.value, sc.center, Divisor(sc.scale))) &&
            e.maxAfter == Some(Affine(e.maxBefore.value, sc.center, Divisor(sc.scale)))
  {
    var j := PositionOf(n, c);
    var before := ColumnOf(n.df, j);
    var sc := ColumnScaler(n, fit, j);
    NormalizeEntry(n, fit, c);
    NormalizeCells(n, fit, j);
    NormalizeScalers(n, fit);
    DetectColumnsCriteria(n, c);
    assert IndexOf(n.df, c).value == j;
    assert |before| > 0;
    assert before[0].Some? && Fits(Numeric, before[0]);
    assert before[0].value.x in Numbers(before);
    NumbersApplied(sc, before);
    AffineRange(Numbers(before), sc.center, Divisor(sc.scale));
  }

  // ---------------------------------------------------------------------
  // summary and run_all

  /** The keys of one statistics entry, in insertion order. */
  const StatsKeys: seq<string> := ["scaler", "min_before", "max_before", "min_after", "max_after"]

  /** `report.get('columns_to_normalize', [])` as the loop iterates it: the
      list, or, when a statistics entry replaced it, that entry's keys. */
  function ListedNames(report: map<string, Entry>): seq<string> {
    if ListKey !in report then []
    else
      match report[ListKey]
      case ColumnList(ns) => ns
      case Stats(_, _, _, _, _) => StatsKeys
  }

  /** The first lookup of the printing loop that fails: `report[col]` raises
      KeyError for a label with no entry, and `info['min_before']` raises
      TypeError when the entry is the list. */
  function SummaryFailure(report: map<string, Entry>, names: seq<string>): (e: Option<Error>)
    ensures e.None? <==> forall k :: 0 <= k < |names| ==> names[k] in report && report[names[k]].Stats?
    ensures e.Some? ==> exists k :: 0 <= k < |names| && (e.value == KeyError(names[k]) || e.value == TypeError(names[k]))
  {
    if |names| == 0 then None
    else if names[0] !in report then Some(KeyError(names[0]))
    else if report[names[0]].ColumnList? then Some(TypeError(names[0]))
    else
      var rest := SummaryFailure(report, names[1..]);
      assert forall k :: 1 <= k < |names| ==> names[k] == names[1..][k - 1];
      rest
  }

  lemma AbsentKey(n: Normalizer, fit: (ScalerKind, seq<real>) -> (real, real), key: string)
    requires Rectangular(n.df) && DistinctNames(n.df) && n.report == map[]
    requires key != ListKey && key !in Selected(n)
    ensures key !in Normalize(n, fit).report
  {
    NormalizeReportKeys(n, fit);
  }

  lemma FirstLookupFails(report: map<string, Entry>, names: seq<string>)
    requires |names| > 0 && names[0] !in report
    ensures SummaryFailure(report, names) == Some(KeyError(names[0]))
  {
  }

  /** `summary()`: printing only, unless one of its lookups raises. */
  function NormalizerSummary(n: Normalizer): (r: Result<Normalizer>)
    ensures r.Ok? ==> r.value == n
    ensures r.Ok? <==> forall k :: 0 <= k < |ListedNames(n.report)| ==>
              ListedNames(n.report)[k] in n.report && n.report[ListedNames(n.report)[k]].Stats?
  {
    match SummaryFailure(n.report, ListedNames(n.report))
    case None => Ok(n)
    case Some(e) => Err(e)
  }

  /** `run_all()`: normalize, summarise, and hand back the frame. */
  function NormalizerRunAll(n: Normalizer, fit: (ScalerKind, seq<real>) -> (real, real)): (r: Result<Table>)
    requires Rectangular(n.df) && DistinctNames(n.df)
    ensures r.Ok? ==> r.value == Normalize(n, fit).df
  {
    match NormalizerSummary(Normalize(n, fit))
    case Ok(m) => Ok(m.df)
    case Err(e) => Err(e)
  }

  /** What the summary loop iterates after `normalize()`. */
  lemma NormalizeListed(n: Normalizer, fit: (ScalerKind, seq<real>) -> (real, real))
    requires Rectangular(n.df) && DistinctNames(n.df)
    ensures ListedNames(Normalize(n, fit).report) == if ListKey in Selected(n) then StatsKeys else Selected(n)
  {
    NormalizeReportKeys(n, fit);
    if ListKey in Selected(n) {
      NormalizeEntry(n, fit, ListKey);
    } else {
      NormalizeListEntry(n, fit);
    }
  }

  /** `run_all` succeeds whenever no selected column is labelled
      `columns_to_normalize`. */
  lemma NormalizerRunAllOk(n: Normalizer, fit: (ScalerKind, seq<real>) -> (real, real))
    requires Rectangular(n.df) && DistinctNames(n.df) && ListKey !in Selected(n)
    ensures NormalizerRunAll(n, fit) == Ok(Normalize(n, fit).df)
  {
    var m := Normalize(n, fit);
    NormalizeListed(n, fit);
    NormalizeReportKeys(n, fit);
    forall k | 0 <= k < |Selected(n)| ensures Selected(n)[k] in m.report && m.report[Selected(n)[k]].Stats? {
      NormalizeEntry(n, fit, Selected(n)[k]);
    }
    assert NormalizerSummary(m) == Ok(m);
  }

  /** On a fresh normalizer, a selected column labelled
      `columns_to_normalize` replaces the list by its statistics, the summary
      iterates the statistics' keys, and (unless a selected column is also
      labelled `scaler`) its lookup of `scaler` raises KeyError. */
  lemma NormalizerListCollision(n: Normalizer, fit: (ScalerKind, seq<real>) -> (real, real))
    requires Rectangular(n.df) && DistinctNames(n.df) && n.report == map[]
    requires ListKey in Selected(n) && StatsKeys[0] !in Selected(n)
    ensures NormalizerRunAll(n, fit) == Err(KeyError(StatsKeys[0]))
  {
    var report := Normalize(n, fit).report;
    NormalizeListed(n, fit);
    AbsentKey(n, fit, StatsKeys[0]);
    FirstLookupFails(report, StatsKeys);
  }
}

=== FILE: outliers.dfy ===
/** IQR outlier masking (`clean_outliers_iqr`): per column, cells strictly
    outside [Q1 - 1.5 IQR, Q3 + 1.5 IQR] become missing; afterwards the
    whole table is gap filled again. */
module Outliers {
  import opened Frame
  import opened Stats
  import opened Fill

  /** The first and third quartile of a column's present values. */
  datatype Quartiles = Quartiles(q1: real, q3: real) {
    function Iqr(): real { q3 - q1 }
    function Lower(): real { q1 - 1.5 * Iqr() }
    function Upper(): real { q3 + 1.5 * Iqr() }
  }

  /** `quantile(0.25)` and `quantile(0.75)` of the present values `xs`;
      `None` is the NaN (or NaT) pandas returns when there are none, against
      which no comparison holds. */
  function QuartilesOf(xs: seq<real>): (f: Option<Quartiles>)
    ensures f.None? <==> |xs| == 0
    ensures f.Some? ==> f.value.q1 <= f.value.q3
    ensures f.Some? ==> Min(xs).value <= f.value.q1 && f.value.q3 <= Max(xs).value
  {
    if |xs| == 0 then None
    else
      var s := Sort(xs);
      QuantileMonotone(s, 0.25, 0.75);
      SortedEnds(xs, s);
      Some(Quartiles(Quantile(s, 0.25), Quantile(s, 0.75)))
  }

  /** The quartiles of a numeric column. */
  function ColumnQuartiles(c: seq<Cell>): (f: Option<Quartiles>)
    ensures f.None? <==> |Numbers(c)| == 0
    ensures f.Some? ==> Min(Numbers(c)).value <= f.value.q1 <= f.value.q3 <= Max(Numbers(c)).value
  {
    QuartilesOf(Numbers(c))
  }

  /** The present timestamps of a datetime column as nanosecond counts, in
      row order. */
  function Stamps(c: seq<Cell>): (xs: seq<real>)
    ensures |xs| <= |c|
  {
    if |c| == 0 then []
    else
      var rest := Stamps(c[1..]);
      if c[0].Some? && c[0].value.Time? then [c[0].value.ns as real] + rest else rest
  }

  /** The timestamps are exactly the present time cells. */
  lemma {:induction false} StampsMembers(c: seq<Cell>)
    ensures forall ns: int :: ns as real in Stamps(c) <==> Some(Time(ns)) in c
  {
    if |c| > 0 {
      StampsMembers(c[1..]);
      assert forall y :: y in c <==> y == c[0] || y in c[1..];
    }
  }

  /** A timestamp strictly outside the fences of a datetime column, whose
      quartiles are timestamps and whose IQR is a duration. */
  predicate IsTimeOutlier(cell: Cell, f: Option<Quartiles>) {
    f.Some? && cell.Some? && cell.value.Time? &&
    (cell.value.ns as real < f.value.Lower() || cell.value.ns as real > f.value.Upper())
  }

  predicate HasTimeOutlier(c: seq<Cell>) {
    exists i :: 0 <= i < |c| && IsTimeOutlier(c[i], QuartilesOf(Stamps(c)))
  }

  lemma SortedEnds(xs: seq<real>, s: seq<real>)
    requires |xs| > 0 && Sorted(s) && multiset(s) == multiset(xs)
    ensures Min(xs).value == s[0] && Max(xs).value == s[|s| - 1]
  {
    assert |s| == |multiset(s)| == |xs|;
    var lo, hi := Min(xs).value, Max(xs).value;
    assert lo in multiset(s) by { assert lo in multiset(xs); }
    assert hi in multiset(s) by { assert hi in multiset(xs); }
    var a :| 0 <= a < |s| && s[a] == lo;
    var b :| 0 <= b < |s| && s[b] == hi;
    assert s[0] <= lo by { if a > 0 { assert s[0] <= s[a]; } }
    assert hi <= s[|s| - 1] by { if b < |s| - 1 { assert s[b] <= s[|s| - 1]; } }
    assert s[0] in xs by { assert s[0] in multiset(s); }
    assert s[|s| - 1] in xs by { assert s[|s| - 1] in multiset(s); }
  }

  /** The fences are in order because Q1 <= Q3. */
  lemma FencesOrdered(f: Quartiles)
    requires f.q1 <= f.q3
    ensures f.Lower() <= f.q1 <= f.q3 <= f.Upper()
  {
  }

  /** The cell is a number strictly outside the column's fences. */
  predicate IsOutlier(cell: Cell, f: Option<Quartiles>) {
    f.Some? && cell.Some? && cell.value.Num? &&
    (cell.value.x < f.value.Lower() || cell.value.x > f.value.Upper())
  }

  predicate HasOutlier(c: seq<Cell>) {
    exists i :: 0 <= i < |c| && IsOutlier(c[i], ColumnQuartiles(c))
  }

  /** `np.where(outside, np.nan, col)` with the column's own fences. */
  function Masked(c: seq<Cell>): (r: seq<Cell>)
    ensures |r| == |c|
    ensures forall i :: 0 <= i < |c| ==> r[i] == c[i] || r[i].None?
  {
    var f := ColumnQuartiles(c);
    seq(|c|, i requires 0 <= i < |c| => if IsOutlier(c[i], f) then None else c[i])
  }

  /** Masking blanks exactly the outliers and keeps every other cell. */
  lemma MaskedSpec(c: seq<Cell>)
    ensures forall i :: 0 <= i < |c| && IsOutlier(c[i], ColumnQuartiles(c)) ==> Masked(c)[i].None?
    ensures forall i :: 0 <= i < |c| && !IsOutlier(c[i], ColumnQuartiles(c)) ==> Masked(c)[i] == c[i]
    ensures !HasOutlier(c) ==> Masked(c) == c
  {
  }

  /** One iteration of the loop for column `j`: the flag says whether the
      column goes into `outlier_columns`. */
  function TreatColumn(t: Table, j: nat): (r: (Table, bool))
    requires Rectangular(t) && j < |t.cols|
    ensures r.0.cols == t.cols && |r.0.rows| == |t.rows| && Rectangular(r.0)
    ensures r.1 <==> HasOutlier(ColumnOf(t, j))
    ensures forall i, k :: 0 <= i < |t.rows| && 0 <= k < |t.cols| ==>
              r.0.rows[i][k] == if k == j then Masked(ColumnOf(t, j))[i] else t.rows[i][k]
  {
    var c := ColumnOf(t, j);
    MaskedSpec(c);
    if HasOutlier(c) then (WithColumn(t, j, Masked(c)), true) else (t, false)
  }

  /** `outlier_cols` for the label `n` as seen in `t`: a numeric column with
      an outlier. */
  predicate Flagged(t: Table, n: string)
    requires Rectangular(t)
  {
    match IndexOf(t, n)
    case Some(j) => t.cols[j].kind == Numeric && HasOutlier(ColumnOf(t, j))
    case None => false
  }

  /** The loop gets past label `n`: the column exists and is numeric; or it
      is a datetime column without outliers (its quartiles exist, but
      `np.where` cannot put NaN into a datetime column, so an outlier there
      raises); or it is a text column with no present value (its quartiles
      are NaN, so no cell compares outside them). A text column holding a
      string has no quantile. */
  predicate Treatable(t: Table, n: string)
    requires Rectangular(t)
  {
    match IndexOf(t, n)
    case Some(j) =>
      (match t.cols[j].kind
       case Numeric => true
       case DateTime => !HasTimeOutlier(ColumnOf(t, j))
       case Text => AllMissing(ColumnOf(t, j)))
    case None => false
  }

  /** The error the loop raises at an untreatable label. */
  function Failure(t: Table, n: string): Error
    requires Rectangular(t)
  {
    if HasColumn(t, n) then TypeError(n) else KeyError(n)
  }

  /** The `for col in columns` loop. A label that is absent raises KeyError;
      a text column holding a string has no quantile and raises TypeError,
      while an all-missing one has NaN quartiles and passes unchanged; a
      datetime column is compared against its own fences, is never
      reported, and raises TypeError when it holds an outlier. */
  function TreatColumns(t: Table, names: seq<string>): (r: Result<(Table, seq<string>)>)
    requires Rectangular(t) && DistinctNames(t)
    ensures r.Ok? ==> r.value.0.cols == t.cols && |r.value.0.rows| == |t.rows| && Rectangular(r.value.0)
    decreases |names|
  {
    if |names| == 0 then Ok((t, []))
    else
      match IndexOf(t, names[0])
      case None => Err(KeyError(names[0]))
      case Some(j) =>
        var c := ColumnOf(t, j);
        if t.cols[j].kind == Text && !AllMissing(c) then Err(TypeError(names[0]))
        else if t.cols[j].kind == DateTime && HasTimeOutlier(c) then Err(TypeError(names[0]))
        else if t.cols[j].kind != Numeric then TreatColumns(t, names[1..])
        else
          var step := TreatColumn(t, j);
          match TreatColumns(step.0, names[1..])
          case Err(e) => Err(e)
          case Ok(v) => Ok((v.0, if step.1 then [names[0]] + v.1 else v.1))
  }

  /** The loop's first iteration, by the kind of the first label's column. */
  lemma TreatColumnsUnfold(t: Table, names: seq<string>)
    requires Rectangular(t) && DistinctNames(t) && |names| > 0
    ensures !Treatable(t, names[0]) ==> TreatColumns(t, names) == Err(Failure(t, names[0]))
    ensures Treatable(t, names[0]) && t.cols[IndexOf(t, names[0]).value].kind != Numeric ==>
              TreatColumns(t, names) == TreatColumns(t, names[1..])
    ensures Treatable(t, names[0]) && t.cols[IndexOf(t, names[0]).value].kind == Numeric ==>
              var r := TreatColumns(TreatColumn(t, IndexOf(t, names[0]).value).0, names[1..]);
              TreatColumns(t, names).Ok? == r.Ok? && (r.Err? ==> TreatColumns(t, names).error == r.error)
  {
  }

  /** The loop raises exactly when some listed label is not treatable. */
  lemma {:induction false} TreatColumnsOk(t: Table, names: seq<string>)
    requires Rectangular(t) && DistinctNames(t)
    ensures TreatColumns(t, names).Ok? <==> forall k :: 0 <= k < |names| ==> Treatable(t, names[k])
    decreases |names|
  {
    if |names| > 0 {
      var tail := names[1..];
      assert forall k :: 1 <= k < |names| ==> names[k] == tail[k - 1];
      TreatColumnsUnfold(t, names);
      if Treatable(t, names[0]) {
        var j := IndexOf(t, names[0]).value;
        if t.cols[j].kind != Numeric {
          TreatColumnsOk(t, tail);
        } else {
          TreatableKept(t, j);
          TreatColumnsOk(TreatColumn(t, j).0, tail);
        }
      }
    }
  }

  /** When the loop raises, it raises at the first untreatable label:
      KeyError when the label is absent, TypeError when its column cannot
      be treated. */
  lemma {:induction false} TreatColumnsError(t: Table, names: seq<string>)
    requires Rectangular(t) && DistinctNames(t) && TreatColumns(t, names).Err?
    ensures exists k :: 0 <= k < |names| && !Treatable(t, names[k]) &&
              (forall k' :: 0 <= k' < k ==> Treatable(t, names[k'])) &&
              TreatColumns(t, names).error == Failure(t, names[k])
    decreases |names|
  {
    var tail := names[1..];
    TreatColumnsUnfold(t, names);
    if Treatable(t, names[0]) {
      var j := IndexOf(t, names[0]).value;
      var t' := if t.cols[j].kind != Numeric then t else TreatColumn(t, j).0;
      if t.cols[j].kind == Numeric { TreatableKept(t, j); }
      TreatColumnsError(t', tail);
      var k :| 0 <= k < |tail| && !Treatable(t', tail[k]) &&
        (forall k' :: 0 <= k' < k ==> Treatable(t', tail[k'])) &&
        TreatColumns(t', tail).error == Failure(t', tail[k]);
      assert names[k + 1] == tail[k];
      forall k' | 0 <= k' < k + 1 ensures Treatable(t, names[k']) {
        if k' > 0 { assert names[k'] == tail[k' - 1]; }
      }
    } else {
      assert !Treatable(t, names[0]);
    }
  }

  /** A listed text column with no value (all missing, or no rows at all)
      has NaN quartiles: the loop leaves the frame as it is and reports
      nothing, while one holding a value raises TypeError. */
  lemma TextListed(t: Table, j: nat)
    requires Rectangular(t) && DistinctNames(t) && j < |t.cols| && t.cols[j].kind == Text
    ensures AllMissing(ColumnOf(t, j)) ==> TreatColumns(t, [t.cols[j].name]) == Ok((t, []))
    ensures !AllMissing(ColumnOf(t, j)) ==> TreatColumns(t, [t.cols[j].name]) == Err(TypeError(t.cols[j].name))
  {
    assert IndexOf(t, t.cols[j].name) == Some(j);
    assert [t.cols[j].name][1..] == [];
  }

  /** A listed datetime column holding at most one timestamp has no outlier:
      the loop leaves the frame as it is and reports nothing. */
  lemma DateTimeListed(t: Table, j: nat)
    requires Rectangular(t) && DistinctNames(t) && j < |t.cols| && t.cols[j].kind == DateTime
    requires |Stamps(ColumnOf(t, j))| <= 1
    ensures TreatColumns(t, [t.cols[j].name]) == Ok((t, []))
  {
    var c := ColumnOf(t, j);
    var xs := Stamps(c);
    assert IndexOf(t, t.cols[j].name) == Some(j);
    if |xs| == 1 {
      var f := QuartilesOf(xs).value;
      assert Min(xs).value == xs[0] == Max(xs).value;
      StampsMembers(c);
      forall i | 0 <= i < |c| ensures !IsTimeOutlier(c[i], QuartilesOf(xs)) {
        if c[i].Some? && c[i].value.Time? {
          assert c[i] in c;
          assert c[i].value.ns as real in xs;
        }
      }
    }
    assert !HasTimeOutlier(c);
    assert [t.cols[j].name][1..] == [];
  }

  /** Masking a numeric column changes no label's treatability or error. */
  lemma TreatableKept(t: Table, j: nat)
    requires Rectangular(t) && DistinctNames(t) && j < |t.cols| && t.cols[j].kind == Numeric
    ensures forall n :: Treatable(TreatColumn(t, j).0, n) == Treatable(t, n)
    ensures forall n :: Failure(TreatColumn(t, j).0, n) == Failure(t, n)
  {
    var t1 := TreatColumn(t, j).0;
    TreatColumnFrame(t, j);
    forall n ensures Treatable(t1, n) == Treatable(t, n) {
      match IndexOf(t, n)
      case None =>
      case Some(k) =>
        if k != j {
          assert ColumnOf(t1, k) == ColumnOf(t, k);
        }
    }
  }

  /** The default column list holds only numeric labels, so the loop over
      it gets past every label. */
  lemma NumericNamesTreatable(t: Table)
    requires Rectangular(t) && DistinctNames(t)
    ensures forall k :: 0 <= k < |NumericNames(t)| ==> Treatable(t, NumericNames(t)[k])
    ensures TreatColumns(t, NumericNames(t)).Ok?
  {
    var names := NumericNames(t);
    forall k | 0 <= k < |names| ensures Treatable(t, names[k]) {
      var j :| 0 <= j < |t.cols| && t.cols[j] == Column(names[k], Numeric);
      assert IndexOf(t, names[k]).Some?;
      assert IndexOf(t, names[k]).value == j;
    }
    TreatColumnsOk(t, names);
  }

  /** `clean_outliers_iqr(columns)`: `None` means every numeric column. */
  function CleanOutliersIqr(t: Table, columns: Option<seq<string>>): (r: Result<(Table, seq<string>)>)
    requires Rectangular(t) && DistinctNames(t)
    ensures columns.None? ==> r.Ok?
    ensures r.Ok? ==> r.value.0.cols == t.cols && |r.value.0.rows| == |t.rows| && Rectangular(r.value.0)
  {
    var names := if columns.None? then NumericNames(t) else columns.value;
    assert columns.None? ==> TreatColumns(t, names).Ok? by { if columns.None? { NumericNamesTreatable(t); } }
    match TreatColumns(t, names)
    case Err(e) => Err(e)
    case Ok(v) => Ok((FillTable(v.0), v.1))
  }

  /** One loop iteration leaves every other column and the labels alone. */
  lemma TreatColumnFrame(t: Table, j: nat)
    requires Rectangular(t) && j < |t.cols|
    ensures forall k :: 0 <= k < |t.cols| && k != j ==> ColumnOf(TreatColumn(t, j).0, k) == ColumnOf(t, k)
    ensures forall n :: IndexOf(TreatColumn(t, j).0, n) == IndexOf(t, n)
  {
    var t1 := TreatColumn(t, j).0;
    forall k | 0 <= k < |t.cols| && k != j ensures ColumnOf(t1, k) == ColumnOf(t, k) {
    }
  }

  /** With distinct labels every listed column is masked once, against the
      quartiles of its original values, and unlisted columns are untouched. */
  function MaskedIfListed(t: Table, names: seq<string>, i: nat, k: nat): Cell
    requires Rectangular(t) && i < |t.rows| && k < |t.cols|
  {
    if t.cols[k].name in names && t.cols[k].kind == Numeric then Masked(ColumnOf(t, k))[i] else t.rows[i][k]
  }

  /** A successful loop got past the first label either by masking a
      numeric column or by leaving a datetime column alone. */
  lemma TreatColumnsStep(t: Table, names: seq<string>)
    requires Rectangular(t) && DistinctNames(t) && |names| > 0 && TreatColumns(t, names).Ok?
    ensures IndexOf(t, names[0]).Some?
    ensures Treatable(t, names[0])
    ensures t.cols[IndexOf(t, names[0]).value].kind != Numeric ==>
              TreatColumns(t, names) == TreatColumns(t, names[1..])
    ensures t.cols[IndexOf(t, names[0]).value].kind == Numeric ==>
              var step := TreatColumn(t, IndexOf(t, names[0]).value);
              TreatColumns(step.0, names[1..]).Ok? &&
              TreatColumns(t, names).value.0 == TreatColumns(step.0, names[1..]).value.0 &&
              TreatColumns(t, names).value.1 ==
                (if step.1 then [names[0]] + TreatColumns(step.0, names[1..]).value.1 else TreatColumns(step.0, names[1..]).value.1)
  {
  }

  lemma {:induction false} TreatColumnsCell(t: Table, names: seq<string>, i: nat, k: nat)
    requires Rectangular(t) && DistinctNames(t) && Distinct(names)
    requires TreatColumns(t, names).Ok? && i < |t.rows| && k < |t.cols|
    ensures TreatColumns(t, names).value.0.rows[i][k] == MaskedIfListed(t, names, i, k)
    decreases |names|
  {
    if |names| > 0 {
      TreatColumnsStep(t, names);
      var j := IndexOf(t, names[0]).value;
      var tail := names[1..];
      assert t.cols[k].name in names <==> t.cols[k].name == names[0] || t.cols[k].name in tail;
      assert Distinct(tail) && names[0] !in tail;
      if t.cols[j].kind != Numeric {
        TreatColumnsCell(t, tail, i, k);
        if t.cols[k].name == names[0] { assert k == j; }
      } else {
        var t1 := TreatColumn(t, j).0;
        TreatColumnsCell(t1, tail, i, k);
        if k != j {
          assert t.cols[k].name != t.cols[j].name;
          TreatColumnFrame(t, j);
        }
      }
    }
  }

  lemma TreatColumnsCells(t: Table, names: seq<string>)
    requires Rectangular(t) && DistinctNames(t) && Distinct(names)
    requires TreatColumns(t, names).Ok?
    ensures forall i, k :: 0 <= i < |t.rows| && 0 <= k < |t.cols| ==>
              TreatColumns(t, names).value.0.rows[i][k] == MaskedIfListed(t, names, i, k)
  {
    forall i, k | 0 <= i < |t.rows| && 0 <= k < |t.cols| {
      TreatColumnsCell(t, names, i, k);
    }
  }

  /** A label is reported exactly when it is listed and its column had an
      outlier before the loop started. */
  lemma TreatColumnsFlags(t: Table, names: seq<string>)
    requires Rectangular(t) && DistinctNames(t) && Distinct(names)
    requires TreatColumns(t, names).Ok?
    ensures forall n :: n in TreatColumns(t, names).value.1 <==> n in names && Flagged(t, n)
  {
    forall n {
      TreatColumnsFlag(t, names, n);
    }
  }

  lemma {:induction false} TreatColumnsFlag(t: Table, names: seq<string>, n: string)
    requires Rectangular(t) && DistinctNames(t) && Distinct(names)
    requires TreatColumns(t, names).Ok?
    ensures n in TreatColumns(t, names).value.1 <==> n in names && Flagged(t, n)
    decreases |names|
  {
    if |names| > 0 {
      TreatColumnsStep(t, names);
      var j := IndexOf(t, names[0]).value;
      var tail := names[1..];
      assert n in names <==> n == names[0] || n in tail;
      assert Distinct(tail) && names[0] !in tail;
      if t.cols[j].kind != Numeric {
        TreatColumnsFlag(t, tail, n);
      } else {
        var t1 := TreatColumn(t, j).0;
        TreatColumnsFlag(t1, tail, n);
        TreatColumnFrame(t, j);
        if n != names[0] && IndexOf(t, n).Some? {
          assert IndexOf(t, n).value != j;
          assert Flagged(t1, n) == Flagged(t, n);
        }
      }
    }
  }

  /** Column by column: masking then refilling keeps every present cell
      inside the fences and gives every outlier a different value (another
      cell of the column that lies inside the fences, or nothing). */
  lemma MaskThenFill(c: seq<Cell>, i: nat)
    requires i < |c|
    ensures c[i].Some? && !IsOutlier(c[i], ColumnQuartiles(c)) ==> FillColumn(Masked(c))[i] == c[i]
    ensures IsOutlier(c[i], ColumnQuartiles(c)) ==> FillColumn(Masked(c))[i] != c[i]
  {
    var m := Masked(c);
    MaskedSpec(c);
    FillColumnSpec(m);
    if IsOutlier(c[i], ColumnQuartiles(c)) && FillColumn(m)[i].Some? {
      var p :| 0 <= p < |m| && m[p] == FillColumn(m)[i];
      assert !IsOutlier(c[p], ColumnQuartiles(c));
    }
  }

  /** What `clean_outliers_iqr()` leaves in a cell of a well-formed table:
      its column masked against its own fences, then gap filled. */
  lemma CleanOutliersCell(t: Table, i: nat, k: nat)
    requires WellFormed(t) && i < |t.rows| && k < |t.cols|
    ensures CleanOutliersIqr(t, None).Ok?
    ensures CleanOutliersIqr(t, None).value.0.rows[i][k] == FillColumn(Masked(ColumnOf(t, k)))[i]
  {
    var names := NumericNames(t);
    NumericFromDistinct(t.cols);
    NumericNamesTreatable(t);
    TreatColumnsCells(t, names);
    var m := TreatColumns(t, names).value.0;
    if t.cols[k].kind != Numeric {
      NonNumericHasNoNumbers(t, k);
      MaskedSpec(ColumnOf(t, k));
    }
    forall p | 0 <= p < |t.rows| ensures m.rows[p][k] == Masked(ColumnOf(t, k))[p] {
      assert m.rows[p][k] == MaskedIfListed(t, names, p, k);
    }
    assert ColumnOf(m, k) == Masked(ColumnOf(t, k));
  }

  /** The stage as `run_all` calls it, on a well-formed table: a present
      cell inside its column's fences survives masking and refilling
      unchanged, and a cell outside them ends up with a different value. */
  lemma CleanOutliersCells(t: Table)
    requires WellFormed(t)
    ensures CleanOutliersIqr(t, None).Ok?
    ensures forall i, k :: 0 <= i < |t.rows| && 0 <= k < |t.cols| ==>
              (t.rows[i][k].Some? && !IsOutlier(t.rows[i][k], ColumnQuartiles(ColumnOf(t, k))) ==>
                 CleanOutliersIqr(t, None).value.0.rows[i][k] == t.rows[i][k])
    ensures forall i, k :: 0 <= i < |t.rows| && 0 <= k < |t.cols| ==>
              (IsOutlier(t.rows[i][k], ColumnQuartiles(ColumnOf(t, k))) ==>
                 CleanOutliersIqr(t, None).value.0.rows[i][k] != t.rows[i][k])
  {
    NumericNamesTreatable(t);
    forall i, k | 0 <= i < |t.rows| && 0 <= k < |t.cols|
      ensures t.rows[i][k].Some? && !IsOutlier(t.rows[i][k], ColumnQuartiles(ColumnOf(t, k))) ==>
                CleanOutliersIqr(t, None).value.0.rows[i][k] == t.rows[i][k]
      ensures IsOutlier(t.rows[i][k], ColumnQuartiles(ColumnOf(t, k))) ==>
                CleanOutliersIqr(t, None).value.0.rows[i][k] != t.rows[i][k]
    {
      CleanOutliersCell(t, i, k);
      MaskThenFill(ColumnOf(t, k), i);
    }
  }

  /** `outlier_columns` lists exactly the numeric columns holding an outlier. */
  lemma CleanOutliersReport(t: Table)
    requires WellFormed(t)
    ensures CleanOutliersIqr(t, None).Ok?
    ensures forall n :: n in CleanOutliersIqr(t, None).value.1 <==>
              (exists j :: 0 <= j < |t.cols| && t.cols[j] == Column(n, Numeric)) && Flagged(t, n)
  {
    var names := NumericNames(t);
    NumericFromDistinct(t.cols);
    NumericNamesTreatable(t);
    TreatColumnsFlags(t, names);
  }

  /** Masking and refilling only moves values within a column, so the
      stage keeps a well-formed table well formed. */
  lemma CleanOutliersWellFormed(t: Table)
    requires WellFormed(t)
    ensures CleanOutliersIqr(t, None).Ok?
    ensures WellFormed(CleanOutliersIqr(t, None).value.0)
  {
    NumericNamesTreatable(t);
    var r := CleanOutliersIqr(t, None).value.0;
    forall i, k | 0 <= i < |t.rows| && 0 <= k < |t.cols| ensures Fits(t.cols[k].kind, r.rows[i][k]) {
      CleanOutliersCell(t, i, k);
      var c := ColumnOf(t, k);
      var m := Masked(c);
      MaskedSpec(c);
      FillColumnSpec(m);
      if FillColumn(m)[i].Some? {
        var p :| 0 <= p < |m| && m[p] == FillColumn(m)[i];
        assert m[p] == c[p];
        assert Fits(t.cols[k].kind, t.rows[p][k]);
      }
    }
  }

  /** In a well-typed table only a numeric column has numbers to take
      quartiles of. */
  lemma NonNumericHasNoNumbers(t: Table, k: nat)
    requires WellFormed(t) && k < |t.cols| && t.cols[k].kind != Numeric
    ensures Numbers(ColumnOf(t, k)) == []
  {
    var c := ColumnOf(t, k);
    forall i | 0 <= i < |c| ensures !(c[i].Some? && c[i].value.Num?) {
      assert Fits(t.cols[k].kind, t.rows[i][k]);
    }
    NoNumbers(c);
  }

  lemma {:induction false} NoNumbers(c: seq<Cell>)
    requires forall i :: 0 <= i < |c| ==> !(c[i].Some? && c[i].value.Num?)
    ensures Numbers(c) == []
  {
    if |c| > 0 {
      NoNumbers(c[1..]);
    }
  }

  /** The default outlier pass masks numeric columns only, so any other
      column keeps a present cell exactly when it had one. */
  lemma CleanOutliersPresence(t: Table)
    requires Rectangular(t) && DistinctNames(t)
    ensures CleanOutliersIqr(t, None).Ok?
    ensures forall k :: 0 <= k < |t.cols| && t.cols[k].kind != Numeric ==>
              (AllMissing(ColumnOf(CleanOutliersIqr(t, None).value.0, k)) <==> AllMissing(ColumnOf(t, k)))
  {
    var names := NumericNames(t);
    NumericFromDistinct(t.cols);
    NumericNamesTreatable(t);
    TreatColumnsCells(t, names);
    var m := TreatColumns(t, names).value.0;
    FillTablePresence(m);
    forall k | 0 <= k < |t.cols| && t.cols[k].kind != Numeric
      ensures ColumnOf(m, k) == ColumnOf(t, k)
    {
      forall i | 0 <= i < |t.rows| ensures m.rows[i][k] == t.rows[i][k] {
        assert m.rows[i][k] == MaskedIfListed(t, names, i, k);
      }
    }
  }
}

=== FILE: quantile.dfy ===
/** Descriptive statistics the outlier rule needs: sorting and the
    `quantile(q)` of pandas, which is numpy's default 'linear' method. */
module Stats {

  predicate Sorted(xs: seq<real>) {
    forall a, b :: 0 <= a < b < |xs| ==> xs[a] <= xs[b]
  }

  function Insert(x: real, xs: seq<real>): (r: seq<real>)
    requires Sorted(xs)
    ensures Sorted(r)
    ensures multiset(r) == multiset(xs) + multiset{x}
    ensures |r| == |xs| + 1
    ensures r[0] == if |xs| == 0 || x <= xs[0] then x else xs[0]
  {
    if |xs| == 0 then [x]
    else if x <= xs[0] then [x] + xs
    else
      var tail := xs[1..];
      var rest := Insert(x, tail);
      assert xs == [xs[0]] + tail;
      assert xs[0] <= rest[0];
      forall k | 0 <= k < |rest| ensures xs[0] <= rest[k] {
        if k > 0 { assert rest[0] <= rest[k]; }
      }
      [xs[0]] + rest
  }

  /** The values in ascending order. */
  function Sort(xs: seq<real>): (r: seq<real>)
    ensures Sorted(r)
    ensures multiset(r) == multiset(xs)
    ensures |r| == |xs|
  {
    if |xs| == 0 then []
    else
      assert xs == [xs[0]] + xs[1..];
      Insert(xs[0], Sort(xs[1..]))
  }

  /** Linear interpolation between ranks `lo` and `lo + 1` at fraction `g`. */
  function Lerp(s: seq<real>, lo: nat, g: real): (r: real)
    requires Sorted(s) && lo + 1 < |s| && 0.0 <= g <= 1.0
    ensures s[lo] <= r <= s[lo + 1]
  {
    var d := s[lo + 1] - s[lo];
    assert 0.0 <= d;
    ScaleBetween(g, d);
    s[lo] + g * d
  }

  lemma ScaleBetween(g: real, d: real)
    requires 0.0 <= g <= 1.0 && 0.0 <= d
    ensures 0.0 <= g * d <= d
  {
  }

  lemma ScaleMono(g: real, g': real, d: real)
    requires g <= g' && 0.0 <= d
    ensures g * d <= g' * d
  {
    assert g' * d - g * d == (g' - g) * d;
  }

  lemma FloorMono(h: real, h': real)
    requires h <= h'
    ensures h.Floor <= h'.Floor
  {
  }

  /** The rank position numpy interpolates at: `(n - 1) * q`. */
  function Position(n: nat, q: real): (h: real)
    requires n > 0 && 0.0 <= q <= 1.0
    ensures 0.0 <= h <= (n - 1) as real
  {
    ScaleBetween(q, (n - 1) as real);
    q * (n - 1) as real
  }

  /** `Series.quantile(q)` on the sorted present values: the value at rank
      `(n - 1) * q`, interpolated linearly between the two ranks around it. */
  function Quantile(s: seq<real>, q: real): (r: real)
    requires Sorted(s) && |s| > 0 && 0.0 <= q <= 1.0
    ensures s[0] <= r <= s[|s| - 1]
  {
    var h := Position(|s|, q);
    var lo := h.Floor;
    if lo + 1 >= |s| then s[|s| - 1]
    else Lerp(s, lo, h - lo as real)
  }

  lemma PositionMono(n: nat, q: real, q': real)
    requires n > 0 && 0.0 <= q <= q' <= 1.0
    ensures Position(n, q) <= Position(n, q')
  {
    ScaleMono(q, q', (n - 1) as real);
  }

  lemma LerpMono(s: seq<real>, lo: nat, g: real, g': real)
    requires Sorted(s) && lo + 1 < |s| && 0.0 <= g <= g' <= 1.0
    ensures Lerp(s, lo, g) <= Lerp(s, lo, g')
  {
    var d := s[lo + 1] - s[lo];
    var x, x' := g * d, g' * d;
    ScaleMono(g, g', d);
    assert x <= x';
    assert Lerp(s, lo, g) == s[lo] + x;
    assert Lerp(s, lo, g') == s[lo] + x';
  }

  /** A higher quantile is never below a lower one: in particular Q1 <= Q3. */
  lemma QuantileMonotone(s: seq<real>, q: real, q': real)
    requires Sorted(s) && |s| > 0 && 0.0 <= q <= q' <= 1.0
    ensures Quantile(s, q) <= Quantile(s, q')
  {
    var n := |s|;
    var h, h' := Position(n, q), Position(n, q');
    var lo, lo' := h.Floor, h'.Floor;
    PositionMono(n, q, q');
    FloorMono(h, h');
    if lo + 1 < n && lo' + 1 < n {
      if lo == lo' {
        LerpMono(s, lo, h - lo as real, h' - lo as real);
      } else {
        assert Quantile(s, q) <= s[lo + 1];
        assert s[lo + 1] <= s[lo'];
      }
    } else if lo + 1 < n {
      assert Quantile(s, q) <= s[lo + 1];
    }
  }
}

=== FILE: strings.dfy ===
/** The two string tests on column labels: Python's `sub in s` and `s.lower()`. */
module Strings {

  predicate StartsWith(s: string, prefix: string) {
    |prefix| <= |s| && s[..|prefix|] == prefix
  }

  /** `sub in s`: `sub` occurs as a contiguous run of `s` (case-sensitive). */
  predicate Contains(s: string, sub: string) {
    StartsWith(s, sub) || (|s| > 0 && Contains(s[1..], sub))
  }

  /** The recursive test agrees with "some window of `s` equals `sub`". */
  lemma {:induction false} ContainsWindow(s: string, sub: string)
    ensures Contains(s, sub) <==> exists i :: 0 <= i <= |s| - |sub| && s[i..][..|sub|] == sub
  {
    if |s| > 0 {
      ContainsWindow(s[1..], sub);
      assert forall i :: 1 <= i <= |s| ==> s[i..] == s[1..][i - 1..];
      if Contains(s[1..], sub) {
        var i :| 0 <= i <= |s[1..]| - |sub| && s[1..][i..][..|sub|] == sub;
        assert s[i + 1..][..|sub|] == sub;
      }
    } else {
      assert s[0..] == s;
    }
    assert s[0..] == s;
  }

  /** A string never contains one longer than itself. */
  lemma {:induction false} ContainsShorter(s: string, sub: string)
    requires |s| < |sub|
    ensures !Contains(s, sub)
  {
    if |s| > 0 {
      ContainsShorter(s[1..], sub);
    }
  }

  function LowerChar(c: char): (r: char)
    ensures 'A' <= c <= 'Z' ==> r as int == c as int + 32
    ensures !('A' <= c <= 'Z') ==> r == c
  {
    if 'A' <= c <= 'Z' then (c as int + 32) as char else c
  }

  /** `s.lower()` on ASCII letters. */
  function Lower(s: string): (r: string)
    ensures |r| == |s|
    ensures forall i :: 0 <= i < |s| ==> r[i] == LowerChar(s[i])
  {
    seq(|s|, i requires 0 <= i < |s| => LowerChar(s[i]))
  }
}

=== FILE: units.dfy ===
/** Unit rescaling (`standardize_units`): a column whose label contains
    `value` and whose maximum exceeds 1e9 is divided by 1e6. */
module Units {
  import opened Frame
  import opened Strings

  const Threshold: real := 1_000_000_000.0
  const Divisor: real := 1_000_000.0

  /** `'value' in col`, the case-sensitive label test. */
  predicate IsValueColumn(c: Column) {
    Contains(c.name, "value")
  }

  /** `df[col].max() > 1e9` raises TypeError for a value column whose maximum
      is not a number: a datetime column, or a text column holding a string.
      An all-missing text column has a NaN maximum, which compares false. */
  predicate Incomparable(t: Table, j: nat)
    requires Rectangular(t) && j < |t.cols|
  {
    IsValueColumn(t.cols[j]) &&
    (t.cols[j].kind == DateTime || (t.cols[j].kind == Text && !AllMissing(ColumnOf(t, j))))
  }

  /** The column the loop divides: a numeric value column whose (skipna)
      maximum exceeds the threshold. */
  predicate Rescaled(t: Table, j: nat)
    requires Rectangular(t) && j < |t.cols|
  {
    IsValueColumn(t.cols[j]) && t.cols[j].kind == Numeric &&
    var m := Max(Numbers(ColumnOf(t, j)));
    m.Some? && m.value > Threshold
  }

  function Rescale(c: Cell): Cell {
    if c.Some? && c.value.Num? then Some(Num(c.value.x / Divisor)) else c
  }

  function RescaleColumn(c: seq<Cell>): (r: seq<Cell>)
    ensures |r| == |c| && forall i :: 0 <= i < |c| ==> r[i] == Rescale(c[i])
  {
    seq(|c|, i requires 0 <= i < |c| => Rescale(c[i]))
  }

  function FirstIncomparable(t: Table, from: nat): (r: Option<nat>)
    requires Rectangular(t) && from <= |t.cols|
    ensures r.None? <==> forall j :: from <= j < |t.cols| ==> !Incomparable(t, j)
    ensures r.Some? ==> from <= r.value < |t.cols| && Incomparable(t, r.value) &&
                        forall j :: from <= j < r.value ==> !Incomparable(t, j)
    decreases |t.cols| - from
  {
    if from == |t.cols| then None
    else if Incomparable(t, from) then Some(from)
    else FirstIncomparable(t, from + 1)
  }

  /** `scaled_cols`: labels of the rescaled columns from position `from` on. */
  function ScaledFrom(t: Table, from: nat): (ns: seq<string>)
    requires Rectangular(t) && from <= |t.cols|
    ensures forall n :: n in ns <==> exists j :: from <= j < |t.cols| && Rescaled(t, j) && t.cols[j].name == n
    decreases |t.cols| - from
  {
    if from == |t.cols| then []
    else
      var rest := ScaledFrom(t, from + 1);
      if Rescaled(t, from) then [t.cols[from].name] + rest else rest
  }

  /** The loop over the value columns. On success exactly the rescaled
      columns are divided by 1e6, every other cell is unchanged, and the
      report lists exactly the rescaled labels; the stage raises TypeError,
      naming the first such column, exactly when a value column's maximum
      cannot be compared with a number. */
  function StandardizeUnits(t: Table): (r: Result<(Table, seq<string>)>)
    requires Rectangular(t)
    ensures r.Err? <==> exists j :: 0 <= j < |t.cols| && Incomparable(t, j)
    ensures r.Err? ==> exists j :: 0 <= j < |t.cols| && Incomparable(t, j) && r.error == TypeError(t.cols[j].name)
    ensures r.Ok? ==> r.value.0.cols == t.cols && |r.value.0.rows| == |t.rows| && Rectangular(r.value.0)
    ensures r.Ok? ==> forall i, j :: 0 <= i < |t.rows| && 0 <= j < |t.cols| ==>
              r.value.0.rows[i][j] == if Rescaled(t, j) then Rescale(t.rows[i][j]) else t.rows[i][j]
    ensures r.Ok? ==> forall n :: n in r.value.1 <==>
              exists j :: 0 <= j < |t.cols| && Rescaled(t, j) && t.cols[j].name == n
  {
    match FirstIncomparable(t, 0)
    case Some(j) => Err(TypeError(t.cols[j].name))
    case None =>
      var rows := seq(|t.rows|, i requires 0 <= i < |t.rows| =>
                    seq(|t.cols|, j requires 0 <= j < |t.cols| =>
                      if Rescaled(t, j) then Rescale(t.rows[i][j]) else t.rows[i][j]));
      Ok((Table(t.cols, rows), ScaledFrom(t, 0)))
  }

  /** Rescaling keeps a table well formed. */
  lemma StandardizeUnitsWellFormed(t: Table)
    requires WellFormed(t) && StandardizeUnits(t).Ok?
    ensures WellFormed(StandardizeUnits(t).value.0)
  {
  }

  function DivideAll(xs: seq<real>, d: real): (r: seq<real>)
    requires d > 0.0
    ensures |r| == |xs| && forall k :: 0 <= k < |xs| ==> r[k] == xs[k] / d
  {
    seq(|xs|, k requires 0 <= k < |xs| => xs[k] / d)
  }

  lemma {:induction false} NumbersRescaled(c: seq<Cell>)
    ensures Numbers(RescaleColumn(c)) == DivideAll(Numbers(c), Divisor)
  {
    if |c| > 0 {
      var r := RescaleColumn(c);
      NumbersRescaled(c[1..]);
      assert r[1..] == RescaleColumn(c[1..]);
      var xs := Numbers(c);
      var rest := Numbers(c[1..]);
      if c[0].Some? && c[0].value.Num? {
        assert xs == [c[0].value.x] + rest;
        assert DivideAll(xs, Divisor) == [c[0].value.x / Divisor] + DivideAll(rest, Divisor);
      } else {
        assert xs == rest;
      }
    }
  }

  lemma DivideMono(a: real, b: real, d: real)
    requires d > 0.0 && a <= b
    ensures a / d <= b / d
  {
  }

  lemma DivideStrict(a: real, b: real, d: real)
    requires d > 0.0 && a < b
    ensures a / d < b / d
  {
  }

  /** Dividing by a positive constant divides the maximum by it. */
  lemma {:induction false} MaxDivided(xs: seq<real>, d: real)
    requires d > 0.0 && |xs| > 0
    ensures Max(DivideAll(xs, d)) == Some(Max(xs).value / d)
  {
    var ys := DivideAll(xs, d);
    if |xs| > 1 {
      MaxDivided(xs[1..], d);
      assert ys[1..] == DivideAll(xs[1..], d);
      var m := Max(xs[1..]).value;
      if xs[0] >= m { DivideMono(m, xs[0], d); } else { DivideStrict(xs[0], m, d); }
    }
  }

  /** After the stage a rescaled column's maximum is the old one divided
      by 1e6, so it still exceeds 1e3. */
  lemma RescaledMax(t: Table, j: nat)
    requires Rectangular(t) && j < |t.cols| && StandardizeUnits(t).Ok? && Rescaled(t, j)
    ensures Max(Numbers(ColumnOf(StandardizeUnits(t).value.0, j))) ==
              Some(Max(Numbers(ColumnOf(t, j))).value / Divisor)
    ensures Max(Numbers(ColumnOf(StandardizeUnits(t).value.0, j))).value > 1000.0
  {
    var c := ColumnOf(t, j);
    var r := StandardizeUnits(t).value.0;
    assert ColumnOf(r, j) == RescaleColumn(c);
    NumbersRescaled(c);
    MaxDivided(Numbers(c), Divisor);
    DivideMono(Threshold, Max(Numbers(c)).value, Divisor);
  }
}
